=== FILE: README.md ===
# Level-Up Gamer storefront rules, in Dafny

A model of the business rules of the Level-Up Gamer Android storefront. They live in
the `Validacion` object and in the state its view-models derive. The model covers:

- the loyalty table: points give a level from 1 to 5, and each level gives a discount percent;
- the form validators and the referral-code generator;
- the cart's subtotal, discount, final total and unit count, its quantity edits, and checkout;
  checkout means the guards, the order request with its `itemsJson` payload, and points accrual;
- the second cart implementation, which adds a 10 percent discount on a fixed list of products;
- the profile screen's level progress, discount percent and app-review submission;
- the catalog's filter, category list, remote-product defaults and add-to-cart;
- the sign-up and sign-in form: field edits, the error map, the user sent, login and logout;
- the product-review screen's load (count and mean) and its guarded submission.

Each reactive flow (`combine`, `map`, `stateIn`) becomes a pure function of one snapshot: the
cart rows, the view state and the signed-in user. Each state update becomes a function from the old
state to the new one.

The outside world is passed in as parameters:
- the server's answer is a `Reply`: `Confirmed(body)`, `NotConfirmed` for a null body or an
  unsuccessful response, or `Failed(message)` for an exception;
- the clock reading for `fechaCreacion`;
- the random referral suffix, constrained to 1000..11759;
- the id storage assigns to a new cart row;
- the message of a failing local-storage call, including the writes that follow a confirmed order.

Modules, one per source file, plus shared helpers:
- `Wrappers`: `Option` and `Reply`.
- `Text`: Kotlin's `trim`, `isBlank`, `lowercase`, `uppercase`, `contains(ignoreCase)`,
  `split` and `joinToString`.
- `Numerals`: `toString`, `toIntOrNull`, truncating division and `coerceAtLeast`.
- `Seqs`: `filter`.
- `Entities`: the shared records.
- The rule modules: `Validation`, `Cart`, `PromoCart`, `Profile`, `Catalog`, `Auth` and `Review`.

Notes on the code as written, which the model follows:

- Only the second cart implementation (`app/src/test/java/com/example/level_up/CartViewModelTest.kt`,
  despite its path a full view-model) has the product discount. The main cart has none.
  `PromoCart.PromoPrice` models the former and `Cart.Price` the latter.
  `PromoCart.AgreesWithMainCartWithoutPromo` proves that the two agree when no listed product is in the cart.
- The main cart's `processOrder` sends `subtotal - discount` without clamping it at 0.
  The screen's `finalTotal` clamps it. `Cart.CheckoutAmounts` keeps the unclamped difference, and
  `Cart.ProcessOrder` proves it equals the screen's figure whenever prices and quantities are non-negative.
  The second implementation sends the clamped figure.
- Accrual also counts one more completed purchase (`totalCompras`).
- The level table accepts any `Int`: a negative balance is level 1.
- Both discounts of the second cart come from the raw subtotal and are added. The model keeps this,
  and `PromoCart.DiscountsStackOnRawSubtotal` pins it down with an example.

## Model

| member | source | states |
|---|---|---|
| Text.Lowercase | app/src/main/java/com/example/level_up/utils/Validacion.kt:7 | `lowercase()` keeps the length and lower-cases each character |
| Text.LowercaseIdempotent | app/src/main/java/com/example/level_up/viewmodel/AuthViewModel.kt:107 | lower-casing an already lower-cased address changes nothing |
| Text.Trim | app/src/main/java/com/example/level_up/utils/Validacion.kt:18 | `trim()` is the contiguous middle of the string with only whitespace around it, starting and ending with a non-whitespace character; it is empty exactly for a blank string |
| Text.TrimIdempotent | app/src/main/java/com/example/level_up/viewmodel/ReviewViewModel.kt:123 | trimming an already trimmed comment changes nothing |
| Text.TrimLengthAtLeast | app/src/main/java/com/example/level_up/utils/Validacion.kt:30 | the trimmed text is at least n UTF-16 units long exactly when the stretch between two non-whitespace characters is |
| Text.Utf16LengthAppend | app/src/main/java/com/example/level_up/utils/Validacion.kt:14 | `length` counts UTF-16 units, one or two per character, and is additive over concatenation |
| Text.ContainsIgnoreCase | app/src/main/java/com/example/level_up/viewmodel/CatalogViewModel.kt:53-54 | `contains(q, ignoreCase = true)` holds exactly when q matches, ignoring case, at some position |
| Text.SplitJoin | app/src/main/java/com/example/level_up/viewmodel/CartViewModel.kt:144 | splitting a `;`-joined list whose parts hold no `;` gives the parts back |
| Numerals.ParseInt | app/src/main/java/com/example/level_up/viewmodel/AuthViewModel.kt:80 | `toIntOrNull()` yields only 32-bit values, and only for text starting with a digit or a sign |
| Numerals.ParseIntRejectsNonNumeric | app/src/main/java/com/example/level_up/viewmodel/AuthViewModel.kt:80 | text holding a character other than a leading sign or a digit does not parse |
| Numerals.ParseIntToString | app/src/main/java/com/example/level_up/viewmodel/CartViewModel.kt:144 | every 32-bit value written out by `toString()` reads back as itself |
| Numerals.Quot | app/src/main/java/com/example/level_up/viewmodel/CartViewModel.kt:57 | integer division truncates toward zero: q*b <= a < q*b + b for a >= 0 |
| Numerals.CoerceAtLeast | app/src/main/java/com/example/level_up/viewmodel/CartViewModel.kt:61 | `coerceAtLeast(lo)` is the larger of x and lo |
| Seqs.Filter | app/src/main/java/com/example/level_up/viewmodel/CatalogViewModel.kt:50-56 | `filter` keeps exactly the elements passing the test, in their order, each as many times as it occurs in the input |
| Validation.IsValidNameIff | app/src/main/java/com/example/level_up/utils/Validacion.kt:18 | a name is valid exactly when two of its characters at different positions are not whitespace, or one of its characters lies outside the Basic Multilingual Plane (two UTF-16 units) |
| Validation.IsValidReviewCommentIff | app/src/main/java/com/example/level_up/utils/Validacion.kt:30 | a comment is valid exactly when the stretch between two non-whitespace characters is ten or more UTF-16 units; ten positions always suffice and, for text inside the Basic Multilingual Plane, are also needed |
| Validation.IsDuocEmailIgnoresCase | app/src/main/java/com/example/level_up/utils/Validacion.kt:7 | the Duoc test gives the same answer for an address and its lower-cased form |
| Validation.EmailScanMeaning | app/src/main/java/com/example/level_up/utils/Validacion.kt:10-12 | each state of the left-to-right matcher describes the text read so far, and the accepting state is reached exactly for the pattern's shape |
| Validation.IsValidEmailIff | app/src/main/java/com/example/level_up/utils/Validacion.kt:10-12 | `esCorreoValido` holds exactly for one non-empty run of `[A-Za-z0-9+_.-]`, one `@`, then one non-empty run of `[A-Za-z0-9.-]` to the end |
| Validation.ReferralCode | app/src/main/java/com/example/level_up/utils/Validacion.kt:32-36 | the code is the first (at most) three non-space characters of the name upper-cased, followed by the suffix written in decimal (no sign, no leading zero), which reads back as the drawn suffix; its length is that prefix plus four or five |
| Validation.ReferralCodeOfValidName | app/src/main/java/com/example/level_up/utils/Validacion.kt:32-36 | every name the form accepts yields a code of six or more UTF-16 units, so a code the referral validator accepts |
| Validation.ReferralCodeOfLongName | app/src/main/java/com/example/level_up/utils/Validacion.kt:32-36 | a name with three or more non-space characters yields a code that starts with its upper-cased prefix and is seven or more long, in characters and in UTF-16 units |
| Validation.ReferralCodeExample | app/src/test/java/com/example/level_up/ValidacionTest.kt:52-57 | "Marcelo" yields a code that starts with "MAR" and whose `length` is six or more |
| Validation.Level | app/src/main/java/com/example/level_up/utils/Validacion.kt:38-46 | the level lies in 1..5, and reaches k (for k in 2..5) exactly when the points reach 500, 2352, 5880 or 11760 |
| Validation.LevelMonotone | app/src/main/java/com/example/level_up/utils/Validacion.kt:38-46 | more points never give a lower level |
| Validation.LevelDiscount | app/src/main/java/com/example/level_up/utils/Validacion.kt:48-57 | levels 1..5 give 5, 7, 10, 12, 15 percent; any other value gives 0 |
| Validation.LevelDiscountMonotone | app/src/main/java/com/example/level_up/utils/Validacion.kt:48-57 | a higher level never gives a smaller percent |
| Validation.PointsDiscount | app/src/main/java/com/example/level_up/utils/Validacion.kt:38-57 | the percent a points balance earns is one of the five table values and never shrinks as the points grow |
| Validation.LevelBoundaries | app/src/test/java/com/example/level_up/ValidacionTest.kt:60-73 | the level at each threshold and one point below it, and the percent at levels 1, 5 and 99 |
| Cart.Subtotal | app/src/main/java/com/example/level_up/viewmodel/CartViewModel.kt:42-44 | the subtotal of an empty cart is 0, and of a cart with non-negative prices and quantities is non-negative |
| Cart.SubtotalAppend | app/src/main/java/com/example/level_up/viewmodel/CartViewModel.kt:42-44 | the subtotal of two carts put together is the sum of their subtotals |
| Cart.ItemCount | app/src/main/java/com/example/level_up/viewmodel/CartViewModel.kt:64-66 | the unit count of an empty cart is 0, and is non-negative for non-negative quantities |
| Cart.UserDiscountPercent | app/src/main/java/com/example/level_up/viewmodel/CartViewModel.kt:46-54 | no user gives 0, a Duoc student 20 whatever the level, anyone else the level's percent |
| Cart.PercentBounds | app/src/main/java/com/example/level_up/viewmodel/CartViewModel.kt:56-58 | a truncated percent (up to 100) of a non-negative amount never exceeds the amount |
| Cart.DiscountAmount | app/src/main/java/com/example/level_up/viewmodel/CartViewModel.kt:56-58 | the discount is the truncated pct/100 share of the subtotal: d*100 <= subtotal*pct < d*100 + 100, and no more than the subtotal |
| Cart.FinalTotal | app/src/main/java/com/example/level_up/viewmodel/CartViewModel.kt:60-62 | the final total is never negative, and is the subtotal less the discount unless that is negative |
| Cart.Price | app/src/main/java/com/example/level_up/viewmodel/CartViewModel.kt:42-62 | the subtotal is the cart's subtotal, the discount is the user's percent of it (truncated) and the total is their difference clamped at 0; an empty cart shows 0/0/0; with no user there is no discount; for non-negative rows 0 <= discount <= subtotal |
| Cart.DuocDiscountIgnoresLevel | app/src/main/java/com/example/level_up/viewmodel/CartViewModel.kt:51 | two Duoc students see the same figures, whatever their levels, with 20 percent off |
| Cart.DiscountPercentage | app/src/main/java/com/example/level_up/viewmodel/CartViewModel.kt:196-199 | the percent shown lies in 0..20 and is the discount the cart takes off a 100-unit cart |
| Cart.RemoveById | app/src/main/java/com/example/level_up/viewmodel/CartViewModel.kt:92-100 | the rows left are exactly the rows with another id, in their order, each as many times as before |
| Cart.SetQuantity | app/src/main/java/com/example/level_up/viewmodel/CartViewModel.kt:84 | rows of that product take the new quantity; every other row is unchanged |
| Cart.UpdateQuantity | app/src/main/java/com/example/level_up/viewmodel/CartViewModel.kt:78-90 | a quantity of zero or less removes the row by id, keeping every other row in order and with its multiplicity; otherwise rows of that product get the new quantity and nothing else changes |
| Cart.RemoveRowEffect | app/src/main/java/com/example/level_up/viewmodel/CartViewModel.kt:82 | in a well-formed cart, removing a row takes exactly its units and its line total away |
| Cart.SetRowEffect | app/src/main/java/com/example/level_up/viewmodel/CartViewModel.kt:84 | in a well-formed cart, setting a row's quantity changes the count and the subtotal only by that row's change |
| Cart.UpdateQuantityEffect | app/src/main/java/com/example/level_up/viewmodel/CartViewModel.kt:78-90 | an edit moves the unit count and the subtotal by exactly the change on the edited row |
| Cart.EditQuantity | app/src/main/java/com/example/level_up/viewmodel/CartViewModel.kt:78-90 | a storage failure leaves the rows alone and shows "Error al actualizar cantidad: " with its message; success leaves the state alone and edits the rows as `UpdateQuantity` does: removal by id for a quantity of zero or less, the new quantity on the product's rows otherwise |
| Cart.RemoveItem | app/src/main/java/com/example/level_up/viewmodel/CartViewModel.kt:92-100 | a storage failure leaves the rows alone and shows "Error al eliminar producto: " with its message; success drops exactly the rows with that id and leaves the state alone |
| Cart.ClearCart | app/src/main/java/com/example/level_up/viewmodel/CartViewModel.kt:102-110 | a storage failure leaves the rows alone and shows "Error al vaciar carrito: " with its message; success leaves no rows and the state alone |
| Cart.ClearedCartRefusesOrder | app/src/main/java/com/example/level_up/viewmodel/CartViewModel.kt:102-125 | after a successful clear, checkout refuses with "El carrito está vacío" and sends nothing |
| Cart.EditQuantityEffect | app/src/main/java/com/example/level_up/viewmodel/CartViewModel.kt:78-90 | after a quantity edit the unit count and subtotal are unchanged if storage failed, and otherwise move by the edited row's difference |
| Cart.RemoveItemEffect | app/src/main/java/com/example/level_up/viewmodel/CartViewModel.kt:92-100 | after a removal the unit count and subtotal are unchanged if storage failed, and otherwise drop by exactly the removed row |
| Cart.ItemLineRoundTrip | app/src/main/java/com/example/level_up/viewmodel/CartViewModel.kt:144 | one row written as `nombre:cantidad:precio` reads back as its name, quantity and price |
| Cart.ItemLinesRoundTrip | app/src/main/java/com/example/level_up/viewmodel/CartViewModel.kt:144 | a list of written rows reads back as the rows' fields, in order |
| Cart.ItemsJsonRoundTrip | app/src/main/java/com/example/level_up/viewmodel/CartViewModel.kt:144 | reading `itemsJson` back recovers every row's name, quantity and price, in order |
| Cart.Accrue | app/src/main/java/com/example/level_up/viewmodel/CartViewModel.kt:155-158 | a confirmed order adds one completed purchase and floor(final/1000) points, and sets the level from the new balance; for a consistent user the level never drops |
| Cart.AccrueExamples | app/src/main/java/com/example/level_up/viewmodel/CartViewModel.kt:155-158 | 999 earns nothing; 2500 lifts 400 points to 402 at level 1; 60000 lifts 450 points to 510 and level 2 |
| Cart.PlaceOrder | app/src/main/java/com/example/level_up/viewmodel/CartViewModel.kt:112-186 | an empty cart is refused first, then a missing user, and neither sends anything; otherwise the request carries the given amounts, the clock and the payload; a confirmed reply whose local writes succeed empties the cart, sets success and accrues points, while a throwing local write, like a failed request, leaves the cart and shows "Error al procesar la orden: " with the message; an unconfirmed order shows "Error al procesar la orden: No se pudo confirmar el pedido con el servidor."; on every reply to a sent request only the processing flag (false), the error and the success flag change |
| Cart.CheckoutAmounts | app/src/main/java/com/example/level_up/viewmodel/CartViewModel.kt:131-134 | the amounts sent are the screen's subtotal and discount and their plain difference, equal to the screen's figures for non-negative rows |
| Cart.ProcessOrder | app/src/main/java/com/example/level_up/viewmodel/CartViewModel.kt:112-145 | a request is sent exactly for a non-empty cart and a signed-in user; it carries the subtotal, the user's discount and their difference, matching the screen for non-negative rows |
| Cart.ProcessOrderAccrual | app/src/main/java/com/example/level_up/viewmodel/CartViewModel.kt:150-164 | a confirmed order empties the cart, adds floor(total/1000) points (never fewer than before) and sets the level from the new balance |
| Cart.ConfirmedButWriteFailed | app/src/main/java/com/example/level_up/viewmodel/CartViewModel.kt:150-184 | a confirmed order whose local writes throw keeps the cart and the user, shows no success and shows the order error with the message |
| PromoCart.RowProductDiscount | app/src/test/java/com/example/level_up/CartViewModelTest.kt:65-73 | a row off the list earns 0; a listed row earns its line total times 10/100, truncated |
| PromoCart.ProductDiscount | app/src/test/java/com/example/level_up/CartViewModelTest.kt:65-73 | the product discount of an empty cart is 0; for non-negative rows it is non-negative and at most a tenth of the subtotal |
| PromoCart.NoPromoNoProductDiscount | app/src/test/java/com/example/level_up/CartViewModelTest.kt:39-40 | a cart without a listed product gets no product discount |
| PromoCart.PromoPrice | app/src/test/java/com/example/level_up/CartViewModelTest.kt:47-81 | the subtotal is the main cart's; the discount is the main cart's user discount plus the product discount; the total is the subtotal less the discount clamped at 0, so it is 0 exactly where the discount exceeds the subtotal; for non-negative rows the discount does not exceed the subtotal |
| PromoCart.StackedDiscountBound | app/src/test/java/com/example/level_up/CartViewModelTest.kt:61-81 | at most 20 percent plus at most 10 percent of a subtotal never exceeds it |
| PromoCart.AgreesWithMainCartWithoutPromo | app/src/test/java/com/example/level_up/CartViewModelTest.kt:65-77 | without listed products both cart implementations show the same figures |
| PromoCart.CatanExample | app/src/test/java/com/example/level_up/CartViewModelTest.kt:65-81 | one Catan at 35269 with no user: 3526 off, 31743 to pay |
| PromoCart.DiscountsStackOnRawSubtotal | app/src/test/java/com/example/level_up/CartViewModelTest.kt:61-77 | a Duoc student buying one Catan at 1000 pays 700: both discounts come from the raw subtotal, not one after the other (which would give 720) |
| PromoCart.ProcessPromoOrder | app/src/test/java/com/example/level_up/CartViewModelTest.kt:136-200 | a request is sent exactly for a non-empty cart and a signed-in user, carrying the figures the screen shows; a user is saved exactly when the server confirms and the local writes succeed, with the points accrued on the clamped final total and the cart emptied; a throwing local write keeps the cart and shows the order error; the unconfirmed and failed replies show the same texts as the main cart, and only the processing flag, the error and the success flag change |
| PromoCart.ProcessPromoOrderAccrual | app/src/test/java/com/example/level_up/CartViewModelTest.kt:169-186 | a confirmed order of this variant empties the cart, adds floor(total/1000) points on the clamped total, counts one more purchase and sets the level from the new balance |
| Profile.NextLevelThreshold | app/src/main/java/com/example/level_up/viewmodel/ProfileViewModel.kt:212-218 | levels 1..4 announce the lowest points of the next level; any other level announces 0 |
| Profile.UserLevelInfo | app/src/main/java/com/example/level_up/viewmodel/ProfileViewModel.kt:209-221 | no user gives (1, 0); otherwise the next level is the current one plus one, and the points missing are max(0, next threshold - points), never negative |
| Profile.PointsNeededReachNextLevel | app/src/main/java/com/example/level_up/viewmodel/ProfileViewModel.kt:209-221 | for a user whose level matches their points below level 5, exactly the points shown are missing: that many more reach the announced level and any fewer do not |
| Profile.TopLevelInfo | app/src/main/java/com/example/level_up/viewmodel/ProfileViewModel.kt:209-221 | a user at level 5 is told level 6 with nothing missing |
| Profile.DiscountPercentage | app/src/main/java/com/example/level_up/viewmodel/ProfileViewModel.kt:223-226 | the profile shows the cart's percent: 0, 20 for Duoc students, else the level's, which is 5..15 for a consistent user |
| Profile.DiscountAgreesWithCart | app/src/main/java/com/example/level_up/viewmodel/ProfileViewModel.kt:223-226 | the profile screen and the cart screen show the same percent for the same user |
| Profile.ToggleEditMode | app/src/main/java/com/example/level_up/viewmodel/ProfileViewModel.kt:201-203 | only the edit flag flips |
| Profile.ToggleEditModeTwice | app/src/main/java/com/example/level_up/viewmodel/ProfileViewModel.kt:201-203 | toggling twice gives the state back |
| Profile.ClearError | app/src/main/java/com/example/level_up/viewmodel/ProfileViewModel.kt:205-207 | only the error is cleared |
| Profile.ClearReviewSubmitSuccess | app/src/main/java/com/example/level_up/viewmodel/ProfileViewModel.kt:126-128 | only the review success flag drops |
| Profile.SubmitAppReview | app/src/main/java/com/example/level_up/viewmodel/ProfileViewModel.kt:84-124 | without a user only the login error is set and nothing is sent; otherwise a review with the user's id and name, the rating and the trimmed comment is sent, the submitting flag ends false, and only a confirmed reply clears the error and sets success; an unconfirmed reply shows "Error al enviar la reseña: El servidor no confirmó el guardado." and a failed one "Error al enviar la reseña: " with the message |
| Profile.SubmittedCommentIsTrimmed | app/src/main/java/com/example/level_up/viewmodel/ProfileViewModel.kt:95-100 | the comment sent neither starts nor ends with whitespace, and is empty only for a blank input |
| Catalog.ToEntity | app/src/main/java/com/example/level_up/viewmodel/CatalogViewModel.kt:133-147 | every missing field takes its default: "N/A", "General", "Producto Desconocido", 0, 0, "", "", "", false; present fields are kept |
| Catalog.ToEntityFromEntity | app/src/main/java/com/example/level_up/viewmodel/CatalogViewModel.kt:133-147 | a product sent with every field arrives unchanged |
| Catalog.ToEntityAllMissing | app/src/main/java/com/example/level_up/viewmodel/CatalogViewModel.kt:133-147 | a product sent with no optional field becomes the placeholder product |
| Catalog.ToEntities | app/src/main/java/com/example/level_up/viewmodel/CatalogViewModel.kt:48 | each remote product is converted in place |
| Catalog.Products | app/src/main/java/com/example/level_up/viewmodel/CatalogViewModel.kt:44-57 | the list shown is an order-preserving subsequence of the converted products, holding exactly those in the selected category (or any, for "Todas") whose name or description contains the query, ignoring case, or all for a blank query; each shown product appears as many times as in the converted list |
| Catalog.ProductsUnfiltered | app/src/main/java/com/example/level_up/viewmodel/CatalogViewModel.kt:44-57 | with "Todas" and a blank query every product is shown, in order |
| Catalog.InitialStateShowsAll | app/src/main/java/com/example/level_up/viewmodel/CatalogViewModel.kt:21-26 | the screen opens on the whole list |
| Catalog.UpdateSearchQuery | app/src/main/java/com/example/level_up/viewmodel/CatalogViewModel.kt:149-151 | only the query changes |
| Catalog.UpdateSelectedCategory | app/src/main/java/com/example/level_up/viewmodel/CatalogViewModel.kt:153-155 | only the selected category changes |
| Catalog.ClearError | app/src/main/java/com/example/level_up/viewmodel/CatalogViewModel.kt:179-181 | only the error is cleared |
| Catalog.ClearedSearchShowsCategory | app/src/main/java/com/example/level_up/viewmodel/CatalogViewModel.kt:44-57 | after picking a category and clearing the query, exactly that category's products are shown |
| Catalog.PresentCategories | app/src/main/java/com/example/level_up/viewmodel/CatalogViewModel.kt:59-61 | the category of every product that has one, in product order with repeats: position k holds the category of the k-th product carrying one; a value occurs exactly when some product carries it |
| Catalog.CategoryPositions | app/src/main/java/com/example/level_up/viewmodel/CatalogViewModel.kt:59-61 | the positions of the products that carry a category, strictly increasing, missing none |
| Catalog.FirstIndex | app/src/main/java/com/example/level_up/viewmodel/CatalogViewModel.kt:62 | the position where a value first occurs |
| Catalog.Distinct | app/src/main/java/com/example/level_up/viewmodel/CatalogViewModel.kt:62 | `distinct()` keeps each value once, exactly the values of the input, ordered by where they first appear |
| Catalog.DistinctInOrder | app/src/main/java/com/example/level_up/viewmodel/CatalogViewModel.kt:62 | the one-pass, seen-set `distinct()` gives the reference result |
| Catalog.Categories | app/src/main/java/com/example/level_up/viewmodel/CatalogViewModel.kt:59-62 | the category list has no repeats, holds exactly the categories some product carries, and orders them by their first occurrence among the products' categories |
| Catalog.CategoriesInProductOrder | app/src/main/java/com/example/level_up/viewmodel/CatalogViewModel.kt:59-62 | the categories appear in the order of the first product carrying each |
| Catalog.FindByProduct | app/src/main/java/com/example/level_up/viewmodel/CatalogViewModel.kt:160 | the first row of the product, or none exactly when no row holds it |
| Catalog.AddToCart | app/src/main/java/com/example/level_up/viewmodel/CatalogViewModel.kt:157-177 | a storage failure only sets the error; a product in the cart gets one more unit on its rows; otherwise one row with one unit, its name and price is appended |
| Catalog.ItemCountAppend | app/src/main/java/com/example/level_up/viewmodel/CatalogViewModel.kt:164-171 | appending a row adds its units to the count |
| Catalog.AddExistingEffect | app/src/main/java/com/example/level_up/viewmodel/CatalogViewModel.kt:161-162 | adding a product already in a well-formed cart keeps it well formed with one more unit |
| Catalog.AddMissingEffect | app/src/main/java/com/example/level_up/viewmodel/CatalogViewModel.kt:163-171 | adding a new product under a fresh id keeps the cart well formed with one more unit |
| Catalog.AddToCartEffect | app/src/main/java/com/example/level_up/viewmodel/CatalogViewModel.kt:157-177 | either way a successful add keeps the cart well formed and the unit count grows by exactly one |
| Auth.Edit | app/src/main/java/com/example/level_up/viewmodel/AuthViewModel.kt:41-67 | the field takes the new text and only its own error key is removed, other errors kept with their messages; editing the e-mail recomputes the Duoc flag; nothing else changes |
| Auth.EditsCommute | app/src/main/java/com/example/level_up/viewmodel/AuthViewModel.kt:41-67 | edits of two different fields can be made in either order |
| Auth.ToggleMode | app/src/main/java/com/example/level_up/viewmodel/AuthViewModel.kt:69-75 | the mode flips, the error map empties and the success flag drops; the fields are kept |
| Auth.ToggleModeTwice | app/src/main/java/com/example/level_up/viewmodel/AuthViewModel.kt:69-75 | toggling twice returns to the same mode with no errors |
| Auth.ClearSuccess | app/src/main/java/com/example/level_up/viewmodel/AuthViewModel.kt:211-213 | only the success flag drops |
| Auth.Logout | app/src/main/java/com/example/level_up/viewmodel/AuthViewModel.kt:203-209 | the form goes back to its initial state: no user, no errors, empty fields, registration mode |
| Auth.LogoutForgets | app/src/main/java/com/example/level_up/viewmodel/AuthViewModel.kt:203-209 | any two states log out to the same state |
| Auth.AgeValue | app/src/main/java/com/example/level_up/viewmodel/AuthViewModel.kt:80 | an age that does not parse counts as -1 |
| Auth.RegisterErrors | app/src/main/java/com/example/level_up/viewmodel/AuthViewModel.kt:79-90 | the error map holds exactly the keys of the fields whose rule fails, each with its message, and no other key; the referral code is checked only when not blank |
| Auth.RegisterErrorsEmptyIff | app/src/main/java/com/example/level_up/viewmodel/AuthViewModel.kt:94 | registration goes ahead exactly when every field passes its rule |
| Auth.NonNumericAgeRejected | app/src/main/java/com/example/level_up/viewmodel/AuthViewModel.kt:80-85 | an age holding a non-digit always gets the age error |
| Auth.EmptyAgeRejected | app/src/main/java/com/example/level_up/viewmodel/AuthViewModel.kt:80-85 | an empty age always gets the age error |
| Auth.LoginErrors | app/src/main/java/com/example/level_up/viewmodel/AuthViewModel.kt:154-158 | login errors hold exactly the e-mail and password keys whose rule fails, with the same messages as registration |
| Auth.LoginIgnoresOtherFields | app/src/main/java/com/example/level_up/viewmodel/AuthViewModel.kt:156-157 | login validation does not depend on the name, age, confirmation or referral fields |
| Auth.RegisterFailure | app/src/main/java/com/example/level_up/viewmodel/AuthViewModel.kt:141-144 | a server message mentioning the taken address is shown as is; any other gets the connection prefix |
| Auth.Register | app/src/main/java/com/example/level_up/viewmodel/AuthViewModel.kt:77-150 | validation errors replace the error map and nothing is sent; otherwise the user sent has the trimmed name, the lower-cased address, the parsed age, the generated code and the referral code only when not blank, and the reply decides success or the general error |
| Auth.LowercaseKeepsEmailValid | app/src/main/java/com/example/level_up/viewmodel/AuthViewModel.kt:107 | lower-casing a valid address keeps it valid |
| Auth.RegistrationSentIsValid | app/src/main/java/com/example/level_up/viewmodel/AuthViewModel.kt:105-113 | the user sent passes every rule again: name of two or more UTF-16 units, valid lower-case address, adult age, password of six or more units, valid generated code, blank or valid referral |
| Auth.SentDuocFlagMatchesAddress | app/src/main/java/com/example/level_up/viewmodel/AuthViewModel.kt:45-51 | once the address is typed, the Duoc flag sent agrees with the Duoc test of the lower-cased address sent |
| Auth.Login | app/src/main/java/com/example/level_up/viewmodel/AuthViewModel.kt:152-201 | validation errors replace the error map and nothing is sent; otherwise the lower-cased address and the password are sent, a confirmed reply signs the user in, and any other reply leaves only a general error |
| Review.AverageRating | app/src/main/java/com/example/level_up/viewmodel/ReviewViewModel.kt:70-72 | no reviews give 0; otherwise the mean times the count is the ratings' sum |
| Review.RatingSumBounds | app/src/main/java/com/example/level_up/viewmodel/ReviewViewModel.kt:70-72 | ratings all in lo..hi add up to between n*lo and n*hi |
| Review.AverageWithinBounds | app/src/main/java/com/example/level_up/viewmodel/ReviewViewModel.kt:70-72 | the mean of ratings all in lo..hi lies in lo..hi |
| Review.AverageIsValidRating | app/src/main/java/com/example/level_up/viewmodel/ReviewViewModel.kt:70-72 | the mean of valid ratings is a valid rating |
| Review.LoadProductReviews | app/src/main/java/com/example/level_up/viewmodel/ReviewViewModel.kt:60-90 | a successful load sets the product, the reviews, their count and mean and clears the error; a failure only sets the load error; either way loading ends |
| Review.LoadedFiguresDescribeReviews | app/src/main/java/com/example/level_up/viewmodel/ReviewViewModel.kt:70-82 | after a load the count is the number of reviews on screen and the mean is theirs, a valid rating |
| Review.FirstCheckFailure | app/src/main/java/com/example/level_up/viewmodel/ReviewViewModel.kt:98-113 | no check fails exactly when there is a user and a product, the rating lies in 0..5 and the trimmed comment is ten or more UTF-16 units long |
| Review.SubmitReview | app/src/main/java/com/example/level_up/viewmodel/ReviewViewModel.kt:93-154 | a failed check changes only the error and sends nothing; otherwise the submitting state is shown, the review sent carries the product's and user's ids, the user's name, the rating and the trimmed comment, and only a confirmed reply clears the error and sets success; an unconfirmed reply shows "Error al enviar reseña: No se pudo confirmar la reseña con el servidor." and a failed one "Error al enviar reseña: " with the message |
| Review.SubmittingOnlyWhenChecksPass | app/src/main/java/com/example/level_up/viewmodel/ReviewViewModel.kt:115 | the submitting state is entered exactly when all four checks pass |
| Review.FirstFailureWins | app/src/main/java/com/example/level_up/viewmodel/ReviewViewModel.kt:98-113 | the checks run in order user, product, rating, comment, and the first that fails sets its message |
| Review.SentReviewIsValid | app/src/main/java/com/example/level_up/viewmodel/ReviewViewModel.kt:119-125 | the review sent passes the checks again: valid rating, valid comment that is already trimmed |
| Review.ClearError | app/src/main/java/com/example/level_up/viewmodel/ReviewViewModel.kt:156-158 | only the error is cleared |
| Review.ClearSubmitSuccess | app/src/main/java/com/example/level_up/viewmodel/ReviewViewModel.kt:160-162 | only the success flag drops |
| Review.RejectedThenClearedRestores | app/src/main/java/com/example/level_up/viewmodel/ReviewViewModel.kt:98-113 | a rejected submission followed by clearing the error gives back the state with no error |

## Left out

- The Compose screens, navigation and theme: no rules live there.
- Room, Retrofit and the repositories: these are storage and network plumbing. The cart is an
  in-memory sequence. A remote call is a `Reply` parameter. A local call that throws is an
  `Option<string>` failure parameter holding the exception message (`Cart.EditQuantity`,
  `Cart.RemoveItem`, `Cart.ClearCart`, `Catalog.AddToCart`).
- Coroutines, `StateFlow` and the ordering of concurrent launches: each derived flow is a
  function of one snapshot.
- 32-bit `Int` overflow in the arithmetic: every amount is an unbounded `int`. Only
  `Numerals.ParseInt` models the 32-bit range, because `toIntOrNull` rejects values outside it.
- `Long` to `Int` id conversions and the `Double` to `Int` price conversion: ids are `int`, and a
  remote price arrives already truncated.
- Review.AverageRating: the mean is an exact `real`, not the `Float` that `average().toFloat()`
  rounds to; ratings are exact reals too.
- Catalog.ToEntity: the remote product's `valoracion` (a `Float`) is not carried.
- Text.Lowercase: case mapping covers ASCII and Latin-1 one-to-one. Other scripts and the
  `ß` to `SS` expansion of `uppercase` are not modelled. The listed "inalámbrico" name is Latin-1.
- Take: `take(3)` in `ReferralPrefix` counts characters, where Kotlin counts UTF-16 units. The two
  agree when the first three characters of the name lie inside the Basic Multilingual Plane.
  Otherwise Kotlin can cut a surrogate pair and keep a lone high surrogate, which a string of Unicode
  scalar values cannot hold. Every `length` test (`IsValidPassword`, `IsValidName`,
  `IsValidReferralCode`, `IsValidReviewComment`) does count UTF-16 units.
- Numerals.ParseInt: only ASCII digits are read. Kotlin also accepts other Unicode decimal digits.
- Review.SubmitReview: a confirmed review also launches `loadProductReviews` (line 134) as a separate
  coroutine. It is not composed in; `Review.LoadProductReviews` models it on its own.
- Auth.Register: the local session writes after a confirmed registration are not modelled
  (`insertar`, `actualizarEstadoSesion`). A write that throws lands in the same catch as a failed
  request (AuthViewModel.kt:139-149), so its outcome is the one `Failed(message)` gives. An
  exception message is a plain string; Kotlin would print a null message as "null".
- Auth.Login: the local session update after a confirmed login is not modelled. A lookup or write
  that throws lands in the same catch as a failed request, so its outcome is the one
  `Failed(message)` gives.
- Cart.PlaceOrder: the local history insert and the user-record writes are represented only by the
  returned cart rows and saved user. When one of them throws (`writeFailure`), the model keeps
  the old cart and saves no user. Writes that completed before the throwing one, such as points
  already stored while clearing the cart fails, are not tracked. The order also stays on the server.
  PromoCart.ProcessPromoOrder treats its `writeFailure` the same way.
- The cart's `clearError` and `clearOrderSuccess` are one-field updates with nothing to prove.
  The view-model's `loadCurrentUser` is a storage read.
- The cart rows' inner join with the product table (`observarCarritoConImagenes`,
  app/src/main/java/com/example/level_up/local/Dao/CarritoDao.kt:16-21):
  the model has one row list and uses it both for the rows shown and for the table that
  `obtenerItemPorProductoId` reads. In the app a cart row whose product has gone from the product
  table, for example after the catalog reload clears and reinserts it
  (app/src/main/java/com/example/level_up/viewmodel/CatalogViewModel.kt:109-112), drops out of the
  rows shown, the unit count, the subtotal and the order payload. It stays in the table and
  `addToCart` can still find it by product id. The model does not separate such orphan rows.
  The image URL is not carried.
- `ProfileViewModel.loadUserData`, `updateUser` and `deleteAccount`: storage and network round trips.
  The order list `userOrders` is left out of the profile state.
- `CatalogViewModel.cargarProductosDesdeAPI`, `cargarNoticias` and `featuredProducts`: network and
  storage loads.
- The duplicate auth view-model under the test sources: it differs from `AuthViewModel.kt` only in
  swallowing `logout` exceptions.
- `UsuarioEntidad`, `ProductoEntidad`, `ReseniaEntidad` and `AppReseniaEntidad` are not part of
  this model. Their fields are the ones the view-models read and write.

=== FILE: auth.dfy ===
/**
 * The sign-up and sign-in form: per-field edits, switching between the two
 * modes, the validation that builds the error map, the user sent to the
 * server on registration, the credentials sent on login, and logout.
 */
module Auth {
  import opened Wrappers
  import opened Text
  import opened Numerals
  import opened Entities
  import opened Validation

  // ---------------------------------------------------------------------
  // Form state
  // ---------------------------------------------------------------------

  /** `AuthState`: the six text fields, the flags, the signed-in user and the error map. */
  datatype AuthState = AuthState(
    name: string,
    email: string,
    age: string,
    pass: string,
    confirm: string,
    refCode: string,
    isDuoc: bool,
    isIngresarMode: bool,
    isLoading: bool,
    isSuccess: bool,
    currentUser: Option<User>,
    errors: map<ErrorKey, string>)

  /** `AuthState()`: every field empty, registration mode, no user, no errors. */
  const INITIAL_STATE: AuthState :=
    AuthState("", "", "", "", "", "", false, false, false, false, None, map[])

  /** The six text fields of the form. */
  datatype Field = Name | Email | Age | Pass | Confirm | RefCode

  /** The error keys of the six fields. */
  const FIELD_KEYS: set<ErrorKey> :=
    {FieldKey(Name), FieldKey(Email), FieldKey(Age), FieldKey(Pass), FieldKey(Confirm), FieldKey(RefCode)}

  /**
   * The keys of the error map: one per field (`"name"`, `"email"`, `"age"`,
   * `"pass"`, `"confirm"`, `"refCode"`) and `"general"` for errors the
   * server reports.
   */
  datatype ErrorKey = FieldKey(field: Field) | General

  /** The string each key stands for in the error map. */
  function KeyName(k: ErrorKey): string {
    match k
    case FieldKey(Name) => "name"
    case FieldKey(Email) => "email"
    case FieldKey(Age) => "age"
    case FieldKey(Pass) => "pass"
    case FieldKey(Confirm) => "confirm"
    case FieldKey(RefCode) => "refCode"
    case General => "general"
  }

  /** Every field's key is among the field keys. */
  lemma FieldKeysListed()
    ensures forall f :: FieldKey(f) in FIELD_KEYS
  {
    forall f ensures FieldKey(f) in FIELD_KEYS {
      match f
      case Name =>
      case Email =>
      case Age =>
      case Pass =>
      case Confirm =>
      case RefCode =>
    }
  }

  /** The text a field currently holds. */
  function Value(s: AuthState, f: Field): string {
    match f
    case Name => s.name
    case Email => s.email
    case Age => s.age
    case Pass => s.pass
    case Confirm => s.confirm
    case RefCode => s.refCode
  }

  /**
   * `onName`, `onEmail`, `onAge`, `onPass`, `onConfirm` and `onRefCode`:
   * the field takes the new text and loses its own error; editing the
   * e-mail also recomputes the Duoc flag.
   */
  function Edit(s: AuthState, f: Field, v: string): (r: AuthState)
    ensures Value(r, f) == v
    ensures forall g :: g != f ==> Value(r, g) == Value(s, g)
    ensures FieldKey(f) !in r.errors
    ensures forall k :: k in r.errors <==> k in s.errors && k != FieldKey(f)
    ensures forall k :: k in r.errors ==> r.errors[k] == s.errors[k]
    ensures r.isDuoc == if f == Email then IsDuocEmail(v) else s.isDuoc
    ensures r.(name := s.name, email := s.email, age := s.age, pass := s.pass, confirm := s.confirm,
               refCode := s.refCode, isDuoc := s.isDuoc, errors := s.errors) == s
  {
    var errors := s.errors - {FieldKey(f)};
    match f
    case Name => s.(name := v, errors := errors)
    case Email => s.(email := v, isDuoc := IsDuocEmail(v), errors := errors)
    case Age => s.(age := v, errors := errors)
    case Pass => s.(pass := v, errors := errors)
    case Confirm => s.(confirm := v, errors := errors)
    case RefCode => s.(refCode := v, errors := errors)
  }

  /** Edits of two different fields can be made in either order. */
  lemma EditsCommute(s: AuthState, f: Field, v: string, g: Field, w: string)
    requires f != g
    ensures Edit(Edit(s, f, v), g, w) == Edit(Edit(s, g, w), f, v)
  {
    EditedErrorsAgree(s, f, v, g, w);
    EditedValuesAgree(s, f, v, g, w);
    SameState(Edit(Edit(s, f, v), g, w), Edit(Edit(s, g, w), f, v));
  }

  /** Either order of two edits leaves the same errors: those of neither field. */
  lemma EditedErrorsAgree(s: AuthState, f: Field, v: string, g: Field, w: string)
    ensures Edit(Edit(s, f, v), g, w).errors == Edit(Edit(s, g, w), f, v).errors
  {
    var a, b := Edit(Edit(s, f, v), g, w), Edit(Edit(s, g, w), f, v);
    forall k ensures k in a.errors <==> k in b.errors {}
    forall k | k in a.errors ensures a.errors[k] == b.errors[k] {}
  }

  /** Either order of edits to two different fields leaves the same field values. */
  lemma EditedValuesAgree(s: AuthState, f: Field, v: string, g: Field, w: string)
    requires f != g
    ensures forall h :: Value(Edit(Edit(s, f, v), g, w), h) == Value(Edit(Edit(s, g, w), f, v), h)
  {
  }

  /** Two states with the same field values, Duoc flag, errors, mode, flags and user are the same state. */
  lemma SameState(a: AuthState, b: AuthState)
    requires forall h :: Value(a, h) == Value(b, h)
    requires a.isDuoc == b.isDuoc && a.errors == b.errors
    requires a.isIngresarMode == b.isIngresarMode && a.isLoading == b.isLoading
    requires a.isSuccess == b.isSuccess && a.currentUser == b.currentUser
    ensures a == b
  {
    assert Value(a, Name) == Value(b, Name) && Value(a, Email) == Value(b, Email) && Value(a, Age) == Value(b, Age);
    assert Value(a, Pass) == Value(b, Pass) && Value(a, Confirm) == Value(b, Confirm) && Value(a, RefCode) == Value(b, RefCode);
  }

  /** `toggleMode`: the other mode, no errors, no success flag; the fields are kept. */
  function ToggleMode(s: AuthState): (r: AuthState)
    ensures r.isIngresarMode != s.isIngresarMode
    ensures r.errors == map[] && !r.isSuccess
    ensures r.(isIngresarMode := s.isIngresarMode, errors := s.errors, isSuccess := s.isSuccess) == s
  {
    s.(isIngresarMode := !s.isIngresarMode, errors := map[], isSuccess := false)
  }

  /** Toggling twice returns to the same mode with a clean error map. */
  lemma ToggleModeTwice(s: AuthState)
    ensures ToggleMode(ToggleMode(s)) == s.(errors := map[], isSuccess := false)
  {
  }

  /** `clearSuccess`: only the success flag drops. */
  function ClearSuccess(s: AuthState): (r: AuthState)
    ensures !r.isSuccess
    ensures r.(isSuccess := s.isSuccess) == s
  {
    s.(isSuccess := false)
  }

  /** `logout`: whatever the form held, it goes back to the initial state. */
  function Logout(s: AuthState): (r: AuthState)
    ensures r.currentUser.None? && r.errors == map[] && !r.isSuccess && !r.isLoading
    ensures forall f :: Value(r, f) == ""
    ensures !r.isIngresarMode && !r.isDuoc
  {
    INITIAL_STATE
  }

  /** Logging out forgets everything: any two states end up the same. */
  lemma LogoutForgets(s: AuthState, t: AuthState)
    ensures Logout(s) == Logout(t)
  {
  }

  // ---------------------------------------------------------------------
  // Validation messages
  // ---------------------------------------------------------------------

  const NAME_ERROR: string := "Nombre debe tener al menos 2 caracteres"
  const EMAIL_ERROR: string := "Email inválido"
  const AGE_ERROR: string := "Debes ser mayor de 18 años"
  const PASS_ERROR: string := "Clave debe tener al menos 6 caracteres"
  const CONFIRM_ERROR: string := "Las contraseñas no coinciden"
  const REFCODE_ERROR: string := "Código de referido inválido"
  const REGISTER_NOT_CONFIRMED_ERROR: string := "Error de registro: No se pudo crear el usuario."
  const REGISTER_ERROR_PREFIX: string := "Error de conexión o servidor: "
  const EMAIL_TAKEN_MARK: string := "correo ya está registrado"
  const LOGIN_NOT_CONFIRMED_ERROR: string := "Credenciales inválidas o error de conexión."
  const LOGIN_ERROR_PREFIX: string := "Error al iniciar sesión: No se pudo conectar al servidor. ("

  /** `age.toIntOrNull() ?: -1`. */
  function AgeValue(age: string): (n: int)
    ensures ParseInt(age).None? ==> n == -1
    ensures ParseInt(age).Some? ==> n == ParseInt(age).value
  {
    ParseInt(age).GetOr(-1)
  }

  /** One validation rule: whether each field's text is acceptable for registration. */
  predicate FieldOk(s: AuthState, f: Field) {
    match f
    case Name => IsValidName(s.name)
    case Email => IsValidEmail(s.email)
    case Age => IsAdult(AgeValue(s.age))
    case Pass => IsValidPassword(s.pass)
    case Confirm => PasswordsMatch(s.pass, s.confirm)
    case RefCode => IsBlank(s.refCode) || IsValidReferralCode(s.refCode)
  }

  /** The message stored when a field fails its rule. */
  function Message(f: Field): string {
    match f
    case Name => NAME_ERROR
    case Email => EMAIL_ERROR
    case Age => AGE_ERROR
    case Pass => PASS_ERROR
    case Confirm => CONFIRM_ERROR
    case RefCode => REFCODE_ERROR
  }

  /**
   * The error map `register` builds: exactly the fields whose rule fails,
   * each with its message; the referral code is checked only when one was
   * typed.
   */
  function RegisterErrors(s: AuthState): (errs: map<ErrorKey, string>)
    ensures forall f :: FieldKey(f) in errs <==> !FieldOk(s, f)
    ensures forall f :: FieldKey(f) in errs ==> errs[FieldKey(f)] == Message(f)
    ensures forall k :: k in errs ==> k in FIELD_KEYS
  {
    FieldKeysListed();
    map k | k in FIELD_KEYS && !FieldOk(s, k.field) :: Message(k.field)
  }

  /** Registration goes ahead exactly when every field passes its rule. */
  lemma RegisterErrorsEmptyIff(s: AuthState)
    ensures RegisterErrors(s) == map[] <==> forall f :: FieldOk(s, f)
  {
    var e := RegisterErrors(s);
    if e != map[] {
      var k :| k in e;
      assert !FieldOk(s, k.field);
    }
    if !(forall f :: FieldOk(s, f)) {
      var f :| !FieldOk(s, f);
      assert FieldKey(f) in e;
    }
  }

  /** An age that is not a whole number always gets the age error. */
  lemma NonNumericAgeRejected(s: AuthState, i: nat)
    requires i < |s.age| && !IsDigit(s.age[i])
    requires i > 0 || (s.age[0] != '-' && s.age[0] != '+')
    ensures FieldKey(Age) in RegisterErrors(s) && RegisterErrors(s)[FieldKey(Age)] == AGE_ERROR
  {
    ParseIntRejectsNonNumeric(s.age, i);
  }

  /** An empty age box gets the age error too. */
  lemma EmptyAgeRejected(s: AuthState)
    requires s.age == ""
    ensures FieldKey(Age) in RegisterErrors(s)
  {
  }

  /** `login` checks only the e-mail and the password, with the same messages as `register`. */
  function LoginErrors(s: AuthState): (errs: map<ErrorKey, string>)
    ensures FieldKey(Email) in errs <==> !IsValidEmail(s.email)
    ensures FieldKey(Pass) in errs <==> !IsValidPassword(s.pass)
    ensures forall k :: k in errs ==> k in {FieldKey(Email), FieldKey(Pass)}
    ensures forall k :: k in errs ==> k in RegisterErrors(s) && errs[k] == RegisterErrors(s)[k]
  {
    map k | k in {FieldKey(Email), FieldKey(Pass)} && !FieldOk(s, k.field) :: Message(k.field)
  }

  /** The login check does not look at the registration-only fields. */
  lemma LoginIgnoresOtherFields(s: AuthState, name: string, age: string, confirm: string, refCode: string)
    ensures LoginErrors(s.(name := name, age := age, confirm := confirm, refCode := refCode)) == LoginErrors(s)
  {
  }

  // ---------------------------------------------------------------------
  // Registering and signing in
  // ---------------------------------------------------------------------

  /** The user `register` sends to the server (`UsuarioEntidad` before the server assigns an id). */
  datatype Registration = Registration(
    nombre: string,
    correo: string,
    edad: int,
    contrasena: string,
    esDuoc: bool,
    codigoReferido: string,
    referidoPor: string)

  /** The form after `register` or `login`, and what was sent to the server, if anything. */
  datatype Outcome<T> = Outcome(state: AuthState, sent: Option<T>)

  /** `e.message?.contains("correo ya está registrado")`, case-sensitive. */
  predicate Mentions(message: string, mark: string) {
    exists at :: 0 <= at <= |message| - |mark| && MarkAt(message, at, mark)
  }

  predicate MarkAt(message: string, at: int, mark: string)
    requires 0 <= at <= |message| - |mark|
  {
    message[at..at + |mark|] == mark
  }

  /** The general error of a failed registration call. */
  function RegisterFailure(message: string): (m: string)
    ensures Mentions(message, EMAIL_TAKEN_MARK) ==> m == message
    ensures !Mentions(message, EMAIL_TAKEN_MARK) ==> m == REGISTER_ERROR_PREFIX + message
  {
    if Mentions(message, EMAIL_TAKEN_MARK) then message else REGISTER_ERROR_PREFIX + message
  }

  /**
   * `register`, with the random referral suffix and the server's reply
   * passed in. Validation errors replace the error map and nothing is sent;
   * otherwise the normalised user is sent and the reply decides the outcome.
   */
  function Register(s: AuthState, suffix: int, reply: Reply<User>): (r: Outcome<Registration>)
    requires IsReferralSuffix(suffix)
    ensures RegisterErrors(s) != map[] ==> r == Outcome(s.(errors := RegisterErrors(s)), None)
    ensures r.sent.Some? <==> RegisterErrors(s) == map[]
    ensures r.sent.Some? ==>
              r.sent.value == Registration(Trim(s.name), Lowercase(s.email), AgeValue(s.age), s.pass, s.isDuoc,
                                           ReferralCode(s.name, suffix), if IsBlank(s.refCode) then "" else s.refCode)
    ensures r.sent.Some? ==> !r.state.isLoading && (reply.Confirmed? ==> r.state.isSuccess)
    ensures r.sent.Some? && reply.Confirmed? ==>
              r.state == s.(isLoading := false, isSuccess := true, currentUser := Some(reply.body), errors := map[])
    ensures r.sent.Some? && reply.NotConfirmed? ==>
              r.state == s.(isLoading := false, errors := map[General := REGISTER_NOT_CONFIRMED_ERROR])
    ensures r.sent.Some? && reply.Failed? ==>
              r.state == s.(isLoading := false, errors := map[General := RegisterFailure(reply.message)])
  {
    var errs := RegisterErrors(s);
    if errs != map[] then Outcome(s.(errors := errs), None)
    else
      var ageInt := AgeValue(s.age);
      var user := Registration(Trim(s.name), Lowercase(s.email), ageInt, s.pass, s.isDuoc,
                               ReferralCode(s.name, suffix), if !IsBlank(s.refCode) then s.refCode else "");
      var after :=
        match reply
        case Confirmed(registered) => s.(isLoading := false, isSuccess := true, currentUser := Some(registered), errors := map[])
        case NotConfirmed => s.(isLoading := false, errors := map[General := REGISTER_NOT_CONFIRMED_ERROR])
        case Failed(message) => s.(isLoading := false, errors := map[General := RegisterFailure(message)]);
      Outcome(after, Some(user))
  }

  /** Lower-casing keeps an address valid: it only turns ASCII capitals into small letters. */
  lemma LowercaseKeepsEmailValid(correo: string)
    requires IsValidEmail(correo)
    ensures IsValidEmail(Lowercase(correo))
  {
    var low := Lowercase(correo);
    IsValidEmailIff(correo);
    var k :| 0 < k < |correo| - 1 && correo[k] == '@' && AllLocal(correo, 0, k) && AllDomain(correo, k + 1, |correo|);
    assert low[k] == '@';
    assert AllLocal(low, 0, k);
    assert AllDomain(low, k + 1, |low|);
    IsValidEmailIff(low);
  }

  /**
   * The user sent on registration satisfies every rule the form checks: a
   * trimmed name of two or more UTF-16 units, a valid lower-case address, an
   * adult age, a password of six or more UTF-16 units, and a referral code of
   * the generated shape.
   */
  lemma RegistrationSentIsValid(s: AuthState, suffix: int, reply: Reply<User>)
    requires IsReferralSuffix(suffix)
    requires RegisterErrors(s) == map[]
    ensures var u := Register(s, suffix, reply).sent.value;
            Utf16Length(u.nombre) >= 2 && IsValidEmail(u.correo) && u.correo == Lowercase(u.correo)
            && u.edad >= 18 && Utf16Length(u.contrasena) >= 6 && IsValidReferralCode(u.codigoReferido)
            && (u.referidoPor == "" || IsValidReferralCode(u.referidoPor))
  {
    RegisterErrorsEmptyIff(s);
    assert FieldOk(s, Name) && FieldOk(s, Email) && FieldOk(s, Age) && FieldOk(s, Pass) && FieldOk(s, RefCode);
    var u := Register(s, suffix, reply).sent.value;
    assert u == Registration(Trim(s.name), Lowercase(s.email), AgeValue(s.age), s.pass, s.isDuoc,
                             ReferralCode(s.name, suffix), if IsBlank(s.refCode) then "" else s.refCode);
    LowercaseKeepsEmailValid(s.email);
    LowercaseIdempotent(s.email);
    ReferralCodeOfValidName(s.name, suffix);
  }

  /**
   * Once the address has been typed, the Duoc flag sent on registration
   * is the Duoc test of the address sent, whatever its case.
   */
  lemma SentDuocFlagMatchesAddress(s: AuthState, correo: string, suffix: int, reply: Reply<User>)
    requires IsReferralSuffix(suffix)
    requires RegisterErrors(Edit(s, Email, correo)) == map[]
    ensures var u := Register(Edit(s, Email, correo), suffix, reply).sent.value;
            u.esDuoc == IsDuocEmail(u.correo)
  {
    IsDuocEmailIgnoresCase(correo);
  }

  /** The credentials `login` sends: the lower-cased address and the password as typed. */
  datatype Credentials = Credentials(correo: string, contrasena: string)

  /**
   * `login`, with the server's reply passed in. Validation errors replace
   * the error map and nothing is sent; otherwise the credentials are sent
   * and the reply decides the outcome.
   */
  function Login(s: AuthState, reply: Reply<User>): (r: Outcome<Credentials>)
    ensures LoginErrors(s) != map[] ==> r == Outcome(s.(errors := LoginErrors(s)), None)
    ensures r.sent.Some? <==> IsValidEmail(s.email) && IsValidPassword(s.pass)
    ensures r.sent.Some? ==> r.sent.value == Credentials(Lowercase(s.email), s.pass)
    ensures r.sent.Some? && reply.Confirmed? ==>
              r.state == s.(isLoading := false, isSuccess := true, currentUser := Some(reply.body), errors := map[])
    ensures r.sent.Some? && reply.NotConfirmed? ==>
              r.state == s.(isLoading := false, errors := map[General := LOGIN_NOT_CONFIRMED_ERROR])
    ensures r.sent.Some? && reply.Failed? ==>
              r.state == s.(isLoading := false, errors := map[General := LOGIN_ERROR_PREFIX + reply.message + ")"])
  {
    var errs := LoginErrors(s);
    if errs != map[] then Outcome(s.(errors := errs), None)
    else
      var after :=
        match reply
        case Confirmed(user) => s.(isLoading := false, isSuccess := true, currentUser := Some(user), errors := map[])
        case NotConfirmed => s.(isLoading := false, errors := map[General := LOGIN_NOT_CONFIRMED_ERROR])
        case Failed(message) => s.(isLoading := false, errors := map[General := LOGIN_ERROR_PREFIX + message + ")"]);
      Outcome(after, Some(Credentials(Lowercase(s.email), s.pass)))
  }
}

=== FILE: cart.dfy ===
/**
 * `CartViewModel`: the cart's derived figures (subtotal, loyalty discount,
 * final total, item count), quantity edits, and checkout with points
 * accrual. The reactive flows are modelled as functions of one snapshot of
 * the cart rows and the view state.
 */
module Cart {
  import opened Wrappers
  import opened Text
  import opened Numerals
  import opened Seqs
  import opened Entities
  import opened Validation

  const EMPTY_CART_ERROR: string := "El carrito está vacío"
  const LOGIN_REQUIRED_ERROR: string := "Debes iniciar sesión para realizar una compra"
  const ORDER_NOT_CONFIRMED_ERROR: string :=
    "Error al procesar la orden: No se pudo confirmar el pedido con el servidor."
  const ORDER_ERROR_PREFIX: string := "Error al procesar la orden: "
  const ORDER_COMPLETED: string := "completed"
  const UPDATE_QUANTITY_ERROR_PREFIX: string := "Error al actualizar cantidad: "
  const REMOVE_ERROR_PREFIX: string := "Error al eliminar producto: "
  const CLEAR_CART_ERROR_PREFIX: string := "Error al vaciar carrito: "

  /** The flat percent Duoc students get, whatever their level. */
  const DUOC_PERCENT: int := 20

  /** Currency units per loyalty point. */
  const UNITS_PER_POINT: int := 1000

  /** `CartState`. */
  datatype CartState = CartState(
    isLoading: bool,
    isProcessingOrder: bool,
    error: Option<string>,
    orderSuccess: bool,
    currentUser: Option<User>)

  /** The rows are keyed by `id`, and no product appears on two rows. */
  predicate WellFormedCart(items: seq<CartItem>) {
    forall i, j :: 0 <= i < j < |items| ==>
      items[i].id != items[j].id && items[i].productoId != items[j].productoId
  }

  // ---------------------------------------------------------------------
  // Derived figures
  // ---------------------------------------------------------------------

  function LineTotal(item: CartItem): int {
    item.precio * item.cantidad
  }

  /** `subtotal`: Σ precio × cantidad. */
  function Subtotal(items: seq<CartItem>): (r: int)
    ensures |items| == 0 ==> r == 0
    ensures NonNegativeCart(items) ==> r >= 0
  {
    if |items| == 0 then 0 else LineTotal(items[0]) + Subtotal(items[1..])
  }

  /** The subtotal of two carts put together is the sum of their subtotals. */
  lemma {:induction false} SubtotalAppend(a: seq<CartItem>, b: seq<CartItem>)
    ensures Subtotal(a + b) == Subtotal(a) + Subtotal(b)
  {
    if |a| == 0 {
      assert a + b == b;
    } else {
      SubtotalAppend(a[1..], b);
      assert (a + b)[1..] == a[1..] + b;
    }
  }

  /** `itemCount`: Σ cantidad, the number of units in the cart. */
  function ItemCount(items: seq<CartItem>): (n: int)
    ensures |items| == 0 ==> n == 0
    ensures NonNegativeCart(items) ==> n >= 0
  {
    if |items| == 0 then 0 else items[0].cantidad + ItemCount(items[1..])
  }

  /** `discountPct` and `getDiscountPercentage`: none without a user, a flat 20 for Duoc students, else the level's. */
  function UserDiscountPercent(u: Option<User>): (pct: int)
    ensures pct in {0, 5, 7, 10, 12, 15, 20}
    ensures u.None? ==> pct == 0
    ensures u.Some? && u.value.esDuoc ==> pct == DUOC_PERCENT
    ensures u.Some? && !u.value.esDuoc ==> pct == LevelDiscount(u.value.nivel)
  {
    match u
    case None => 0
    case Some(user) => if user.esDuoc then DUOC_PERCENT else LevelDiscount(user.nivel)
  }

  /** A non-negative amount times a percent in 0..100, divided by 100: the pct/100 fraction of the amount, rounded down. */
  lemma PercentBounds(amount: int, pct: int, d: int)
    ensures 0 <= amount && 0 <= pct <= 100 && 0 <= d && d * 100 <= amount * pct ==> d <= amount
  {
    if 0 <= amount && 0 <= pct <= 100 {
      assert amount * pct <= amount * 100;
    }
  }

  /** `discountAmount`: the `pct` percent of `subtotal`, truncated to a whole unit. */
  function DiscountAmount(subtotal: int, pct: int): (d: int)
    ensures 0 <= subtotal && 0 <= pct ==> 0 <= d && d * 100 <= subtotal * pct < d * 100 + 100
    ensures 0 <= subtotal && 0 <= pct <= 100 ==> d <= subtotal
  {
    var d := Quot(subtotal * pct, 100);
    PercentBounds(subtotal, pct, d);
    d
  }

  /** `finalTotal`: the subtotal less the discount, never below zero. */
  function FinalTotal(subtotal: int, discount: int): (t: int)
    ensures t >= 0
    ensures t == subtotal - discount || (t == 0 && subtotal < discount)
  {
    CoerceAtLeast(subtotal - discount, 0)
  }

  /** The three figures the cart screen and an order carry. */
  datatype Totals = Totals(subtotal: int, discount: int, total: int)

  /** The cart screen's `subtotal`, `discountAmount` and `finalTotal` for one snapshot. */
  function Price(items: seq<CartItem>, u: Option<User>): (t: Totals)
    ensures t.subtotal == Subtotal(items)
    ensures t.discount == DiscountAmount(t.subtotal, UserDiscountPercent(u))
    ensures t.total == FinalTotal(t.subtotal, t.discount)
    ensures |items| == 0 ==> t == Totals(0, 0, 0)
    ensures t.total >= 0
    ensures u.None? ==> t.discount == 0
    ensures NonNegativeCart(items) ==> 0 <= t.discount <= t.subtotal && t.total == t.subtotal - t.discount
    ensures NonNegativeCart(items) ==> t.total <= t.subtotal
  {
    var sub := Subtotal(items);
    var disc := DiscountAmount(sub, UserDiscountPercent(u));
    Totals(sub, disc, FinalTotal(sub, disc))
  }

  /** A Duoc student pays the flat 20 percent discount whatever their level or points. */
  lemma DuocDiscountIgnoresLevel(items: seq<CartItem>, a: User, b: User)
    requires a.esDuoc && b.esDuoc
    ensures Price(items, Some(a)) == Price(items, Some(b))
    ensures Price(items, Some(a)).discount == Quot(Subtotal(items) * 20, 100)
  {
  }

  /** `getDiscountPercentage`, read from the view state. */
  function DiscountPercentage(s: CartState): (pct: int)
    ensures 0 <= pct <= 20
    ensures pct == Price([CartItem(0, 0, "", 100, 1)], s.currentUser).discount
  {
    UserDiscountPercent(s.currentUser)
  }

  // ---------------------------------------------------------------------
  // Quantity edits
  // ---------------------------------------------------------------------

  /** `eliminarPorId`: every row with that `id` deleted, the rest kept in order. */
  function RemoveById(items: seq<CartItem>, id: int): (r: seq<CartItem>)
    ensures forall i :: 0 <= i < |r| ==> r[i].id != id && r[i] in items
    ensures forall i :: 0 <= i < |items| && items[i].id != id ==> items[i] in r
    ensures IsSubsequence(r, items)
    ensures forall x :: Count(r, x) == if x.id != id then Count(items, x) else 0
  {
    Filter((it: CartItem) => it.id != id, items)
  }

  /** `actualizarCantidad`: the quantity of every row of that product set, nothing else touched. */
  function SetQuantity(items: seq<CartItem>, productoId: int, cantidad: int): (r: seq<CartItem>)
    ensures |r| == |items|
    ensures forall i :: 0 <= i < |items| ==>
              r[i] == if items[i].productoId == productoId then items[i].(cantidad := cantidad) else items[i]
  {
    seq(|items|, i requires 0 <= i < |items| =>
      if items[i].productoId == productoId then items[i].(cantidad := cantidad) else items[i])
  }

  /** `updateQuantity`: a quantity of zero or less removes the row, anything else sets it. */
  function UpdateQuantity(items: seq<CartItem>, item: CartItem, newQuantity: int): (r: seq<CartItem>)
    ensures newQuantity <= 0 ==> forall i :: 0 <= i < |r| ==> r[i].id != item.id
    ensures newQuantity <= 0 ==> forall i :: 0 <= i < |items| && items[i].id != item.id ==> items[i] in r
    ensures newQuantity <= 0 ==> IsSubsequence(r, items)
    ensures newQuantity <= 0 ==> forall x :: Count(r, x) == if x.id != item.id then Count(items, x) else 0
    ensures newQuantity > 0 ==> |r| == |items|
    ensures newQuantity > 0 ==> forall i :: 0 <= i < |items| ==>
              r[i].(cantidad := items[i].cantidad) == items[i]
              && r[i].cantidad == if items[i].productoId == item.productoId then newQuantity else items[i].cantidad
  {
    if newQuantity <= 0 then RemoveById(items, item.id) else SetQuantity(items, item.productoId, newQuantity)
  }

  /** In a well-formed cart, the rows after the one holding `item` share neither its id nor its product. */
  lemma WellFormedTail(items: seq<CartItem>)
    requires WellFormedCart(items) && |items| > 0
    ensures WellFormedCart(items[1..])
    ensures forall i :: 0 <= i < |items[1..]| ==>
              items[1..][i].id != items[0].id && items[1..][i].productoId != items[0].productoId
  {
    forall i | 0 <= i < |items[1..]|
      ensures items[1..][i].id != items[0].id && items[1..][i].productoId != items[0].productoId
    {
      assert items[1..][i] == items[i + 1];
    }
  }

  /** Deleting the row of `item` takes exactly its units and its line total away. */
  lemma {:induction false} RemoveRowEffect(items: seq<CartItem>, item: CartItem)
    requires WellFormedCart(items) && item in items
    ensures ItemCount(RemoveById(items, item.id)) == ItemCount(items) - item.cantidad
    ensures Subtotal(RemoveById(items, item.id)) == Subtotal(items) - LineTotal(item)
  {
    var h, t := items[0], items[1..];
    WellFormedTail(items);
    if h == item {
      FilterKeepsAll((it: CartItem) => it.id != item.id, t);
      assert RemoveById(items, item.id) == t;
    } else {
      assert item in t by {
        var k :| 0 <= k < |items| && items[k] == item;
        assert k > 0 && t[k - 1] == item;
      }
      RemoveRowEffect(t, item);
      assert RemoveById(items, item.id) == [h] + RemoveById(t, item.id);
    }
  }

  /** Setting the quantity of `item`'s product changes only that row's units and line total. */
  lemma SetRowEffect(items: seq<CartItem>, item: CartItem, q: int)
    requires WellFormedCart(items) && item in items
    ensures ItemCount(SetQuantity(items, item.productoId, q)) == ItemCount(items) - item.cantidad + q
    ensures Subtotal(SetQuantity(items, item.productoId, q)) == Subtotal(items) - LineTotal(item) + item.precio * q
  {
    SetRowCount(items, item, q);
    SetRowSubtotal(items, item, q);
  }

  /** Setting the quantity of `item`'s product moves the unit count by that row's change. */
  lemma {:induction false} SetRowCount(items: seq<CartItem>, item: CartItem, q: int)
    requires WellFormedCart(items) && item in items
    ensures ItemCount(SetQuantity(items, item.productoId, q)) == ItemCount(items) - item.cantidad + q
  {
    var h, t := items[0], items[1..];
    var r := SetQuantity(items, item.productoId, q);
    WellFormedTail(items);
    assert r[1..] == SetQuantity(t, item.productoId, q);
    if h == item {
      assert SetQuantity(t, item.productoId, q) == t;
    } else {
      assert item in t by {
        var k :| 0 <= k < |items| && items[k] == item;
        assert k > 0 && t[k - 1] == item;
      }
      assert h.productoId != item.productoId by {
        var k :| 0 <= k < |items| && items[k] == item;
        assert k > 0;
      }
      SetRowCount(t, item, q);
    }
  }

  /** Setting the quantity of `item`'s product moves the subtotal by that row's change. */
  lemma {:induction false} SetRowSubtotal(items: seq<CartItem>, item: CartItem, q: int)
    requires WellFormedCart(items) && item in items
    ensures Subtotal(SetQuantity(items, item.productoId, q)) == Subtotal(items) - LineTotal(item) + item.precio * q
  {
    var h, t := items[0], items[1..];
    var r := SetQuantity(items, item.productoId, q);
    WellFormedTail(items);
    assert r[1..] == SetQuantity(t, item.productoId, q);
    if h == item {
      assert SetQuantity(t, item.productoId, q) == t;
    } else {
      assert item in t by {
        var k :| 0 <= k < |items| && items[k] == item;
        assert k > 0 && t[k - 1] == item;
      }
      assert h.productoId != item.productoId by {
        var k :| 0 <= k < |items| && items[k] == item;
        assert k > 0;
      }
      SetRowSubtotal(t, item, q);
    }
  }

  /**
   * On a well-formed cart holding `item`, an edit moves the unit count and
   * the subtotal by exactly the change on that one row.
   */
  lemma UpdateQuantityEffect(items: seq<CartItem>, item: CartItem, newQuantity: int)
    requires WellFormedCart(items) && item in items
    ensures var q := if newQuantity > 0 then newQuantity else 0;
            ItemCount(UpdateQuantity(items, item, newQuantity)) == ItemCount(items) - item.cantidad + q
            && Subtotal(UpdateQuantity(items, item, newQuantity)) == Subtotal(items) - LineTotal(item) + item.precio * q
  {
    if newQuantity <= 0 {
      RemoveRowEffect(items, item);
    } else {
      SetRowEffect(items, item, newQuantity);
    }
  }

  // ---------------------------------------------------------------------
  // The screen's edits, with the storage outcome passed in
  // ---------------------------------------------------------------------

  /** The cart rows and the screen state after one edit. */
  datatype EditOutcome = EditOutcome(items: seq<CartItem>, state: CartState)

  /**
   * `updateQuantity`: `failure` holds the message of an exception thrown by
   * the storage call. A failed call leaves the rows alone and shows the
   * error; a successful one changes only the rows.
   */
  function EditQuantity(items: seq<CartItem>, s: CartState, item: CartItem, newQuantity: int,
                        failure: Option<string>): (r: EditOutcome)
    ensures failure.Some? ==>
              r == EditOutcome(items, s.(error := Some(UPDATE_QUANTITY_ERROR_PREFIX + failure.value)))
    ensures failure.None? ==> r.state == s && r.items == UpdateQuantity(items, item, newQuantity)
    ensures failure.None? && newQuantity <= 0 ==>
              forall x :: Count(r.items, x) == if x.id != item.id then Count(items, x) else 0
    ensures failure.None? && newQuantity > 0 ==> |r.items| == |items|
  {
    if failure.Some? then EditOutcome(items, s.(error := Some(UPDATE_QUANTITY_ERROR_PREFIX + failure.value)))
    else EditOutcome(UpdateQuantity(items, item, newQuantity), s)
  }

  /** `removeById`, with the storage outcome passed in as for `EditQuantity`. */
  function RemoveItem(items: seq<CartItem>, s: CartState, id: int, failure: Option<string>): (r: EditOutcome)
    ensures failure.Some? ==> r == EditOutcome(items, s.(error := Some(REMOVE_ERROR_PREFIX + failure.value)))
    ensures failure.None? ==> r.state == s && IsSubsequence(r.items, items)
    ensures failure.None? ==> forall x :: Count(r.items, x) == if x.id != id then Count(items, x) else 0
  {
    if failure.Some? then EditOutcome(items, s.(error := Some(REMOVE_ERROR_PREFIX + failure.value)))
    else EditOutcome(RemoveById(items, id), s)
  }

  /** `clearCart`, with the storage outcome passed in as for `EditQuantity`. */
  function ClearCart(items: seq<CartItem>, s: CartState, failure: Option<string>): (r: EditOutcome)
    ensures failure.Some? ==> r == EditOutcome(items, s.(error := Some(CLEAR_CART_ERROR_PREFIX + failure.value)))
    ensures failure.None? ==> r.state == s && r.items == []
    ensures failure.None? ==> ItemCount(r.items) == 0 && Subtotal(r.items) == 0
  {
    if failure.Some? then EditOutcome(items, s.(error := Some(CLEAR_CART_ERROR_PREFIX + failure.value)))
    else EditOutcome([], s)
  }

  /**
   * The badge count and subtotal after a quantity edit: unchanged when the
   * storage call fails, moved by the edited row's difference when it succeeds.
   */
  lemma EditQuantityEffect(items: seq<CartItem>, s: CartState, item: CartItem, newQuantity: int,
                           failure: Option<string>)
    requires WellFormedCart(items) && item in items
    ensures var r := EditQuantity(items, s, item, newQuantity, failure);
            var q := if failure.Some? then item.cantidad else if newQuantity > 0 then newQuantity else 0;
            ItemCount(r.items) == ItemCount(items) - item.cantidad + q
            && Subtotal(r.items) == Subtotal(items) - LineTotal(item) + item.precio * q
  {
    if failure.None? {
      UpdateQuantityEffect(items, item, newQuantity);
    }
  }

  /** The badge count and subtotal after a removal, as for `EditQuantityEffect`. */
  lemma RemoveItemEffect(items: seq<CartItem>, s: CartState, item: CartItem, failure: Option<string>)
    requires WellFormedCart(items) && item in items
    ensures var r := RemoveItem(items, s, item.id, failure);
            ItemCount(r.items) == ItemCount(items) - (if failure.Some? then 0 else item.cantidad)
            && Subtotal(r.items) == Subtotal(items) - (if failure.Some? then 0 else LineTotal(item))
  {
    if failure.None? {
      RemoveRowEffect(items, item);
    }
  }

  // ---------------------------------------------------------------------
  // Order payload: itemsJson
  // ---------------------------------------------------------------------

  /** One row rendered as `nombre:cantidad:precio`. */
  function ItemLine(item: CartItem): string {
    item.nombre + ":" + IntToString(item.cantidad) + ":" + IntToString(item.precio)
  }

  function ItemLines(items: seq<CartItem>): (lines: seq<string>)
    ensures |lines| == |items|
  {
    if |items| == 0 then [] else [ItemLine(items[0])] + ItemLines(items[1..])
  }

  /** `itemsJson`: the rows' lines joined by `;`. */
  function ItemsJson(items: seq<CartItem>): string {
    Join(ItemLines(items), ';')
  }

  /** What a reader of `itemsJson` recovers from one line. */
  datatype LineFields = LineFields(nombre: string, cantidad: int, precio: int)

  function ParseItemLine(line: string): Option<LineFields> {
    var f := Split(line, ':');
    if |f| != 3 then None
    else match (ParseInt(f[1]), ParseInt(f[2]))
      case (Some(q), Some(p)) => Some(LineFields(f[0], q, p))
      case _ => None
  }

  function ParseItemLines(lines: seq<string>): Option<seq<LineFields>> {
    if |lines| == 0 then Some([])
    else match (ParseItemLine(lines[0]), ParseItemLines(lines[1..]))
      case (Some(f), Some(rest)) => Some([f] + rest)
      case _ => None
  }

  /** Reads an `itemsJson` payload back into its rows' fields. */
  function ParseItemsJson(s: string): Option<seq<LineFields>> {
    ParseItemLines(Split(s, ';'))
  }

  /** A name the payload can carry unambiguously, and quantities and prices that fit an `Int`. */
  predicate Serializable(item: CartItem) {
    ':' !in item.nombre && ';' !in item.nombre
    && INT_MIN <= item.cantidad <= INT_MAX && INT_MIN <= item.precio <= INT_MAX
  }

  function FieldsOf(items: seq<CartItem>): (r: seq<LineFields>)
    ensures |r| == |items|
    ensures forall i :: 0 <= i < |items| ==>
              r[i] == LineFields(items[i].nombre, items[i].cantidad, items[i].precio)
  {
    seq(|items|, i requires 0 <= i < |items| => LineFields(items[i].nombre, items[i].cantidad, items[i].precio))
  }

  lemma ItemLineRoundTrip(item: CartItem)
    requires Serializable(item)
    ensures ';' !in ItemLine(item)
    ensures ParseItemLine(ItemLine(item)) == Some(LineFields(item.nombre, item.cantidad, item.precio))
  {
    var parts := [item.nombre, IntToString(item.cantidad), IntToString(item.precio)];
    ItemLineIsJoin(item);
    SplitJoin(parts, ':');
    ParseIntToString(item.cantidad);
    ParseIntToString(item.precio);
  }

  /** A row's line is its three fields joined by `:`. */
  lemma ItemLineIsJoin(item: CartItem)
    ensures ItemLine(item) == Join([item.nombre, IntToString(item.cantidad), IntToString(item.precio)], ':')
  {
    var q, p := IntToString(item.cantidad), IntToString(item.precio);
    var parts := [item.nombre, q, p];
    assert parts[1..] == [q, p] && [q, p][1..] == [p];
    assert Join([q, p], ':') == q + [':'] + p;
    assert Join(parts, ':') == item.nombre + [':'] + (q + [':'] + p);
  }

  lemma ItemLinesRoundTrip(items: seq<CartItem>)
    requires forall i :: 0 <= i < |items| ==> Serializable(items[i])
    ensures forall i :: 0 <= i < |items| ==> ';' !in ItemLines(items)[i]
    ensures ParseItemLines(ItemLines(items)) == Some(FieldsOf(items))
  {
    ItemLinesNoSeparator(items);
    ItemLinesParse(items);
  }

  /** No written row contains the `;` that separates rows. */
  lemma {:induction false} ItemLinesNoSeparator(items: seq<CartItem>)
    requires forall i :: 0 <= i < |items| ==> Serializable(items[i])
    ensures forall i :: 0 <= i < |items| ==> ';' !in ItemLines(items)[i]
  {
    if |items| > 0 {
      ItemLineRoundTrip(items[0]);
      ItemLinesNoSeparator(items[1..]);
      assert ItemLines(items)[1..] == ItemLines(items[1..]);
    }
  }

  /** The written rows read back, one by one, as the rows' fields. */
  lemma {:induction false} ItemLinesParse(items: seq<CartItem>)
    requires forall i :: 0 <= i < |items| ==> Serializable(items[i])
    ensures ParseItemLines(ItemLines(items)) == Some(FieldsOf(items))
  {
    if |items| > 0 {
      var lines := ItemLines(items);
      assert lines[0] == ItemLine(items[0]) && lines[1..] == ItemLines(items[1..]);
      ItemLineRoundTrip(items[0]);
      ItemLinesParse(items[1..]);
      ParseFirstLine(lines);
      FieldsOfFirst(items);
    }
  }

  /** The fields of a non-empty list are those of its first row, then those of the rest. */
  lemma FieldsOfFirst(items: seq<CartItem>)
    requires |items| > 0
    ensures FieldsOf(items) == [LineFields(items[0].nombre, items[0].cantidad, items[0].precio)] + FieldsOf(items[1..])
  {
    var r := [LineFields(items[0].nombre, items[0].cantidad, items[0].precio)] + FieldsOf(items[1..]);
    assert forall i :: 0 < i < |items| ==> r[i] == FieldsOf(items[1..])[i - 1];
  }

  /** Lines read back when the first one does and the rest do. */
  lemma ParseFirstLine(lines: seq<string>)
    requires |lines| > 0 && ParseItemLine(lines[0]).Some? && ParseItemLines(lines[1..]).Some?
    ensures ParseItemLines(lines) == Some([ParseItemLine(lines[0]).value] + ParseItemLines(lines[1..]).value)
  {
  }

  /** Reading `itemsJson` back recovers every row's name, quantity and price, in order. */
  lemma ItemsJsonRoundTrip(items: seq<CartItem>)
    requires |items| > 0
    requires forall i :: 0 <= i < |items| ==> Serializable(items[i])
    ensures ParseItemsJson(ItemsJson(items)) == Some(FieldsOf(items))
  {
    ItemLinesRoundTrip(items);
    SplitJoin(ItemLines(items), ';');
  }

  // ---------------------------------------------------------------------
  // Checkout
  // ---------------------------------------------------------------------

  /** `PedidoRequest`, the order sent to the backend. */
  datatype OrderRequest = OrderRequest(
    usuarioId: int,
    montoTotal: int,
    montoDescuento: int,
    montoFinal: int,
    estado: string,
    fechaCreacion: int,
    itemsJson: string)

  /**
   * The outcome of a checkout: the new view state, the request sent (if
   * any), the cart rows left, and the user record written back after
   * points accrual (if any).
   */
  datatype Checkout = Checkout(
    state: CartState,
    request: Option<OrderRequest>,
    cart: seq<CartItem>,
    savedUser: Option<User>)

  /**
   * Points accrual after a confirmed order: one point per whole 1000 of the
   * final amount (truncated), the level recomputed from the new balance, and
   * one more completed purchase.
   */
  function Accrue(u: User, finalAmount: int): (r: User)
    ensures r.(puntosLevelUp := u.puntosLevelUp, nivel := u.nivel, totalCompras := u.totalCompras) == u
    ensures r.totalCompras == u.totalCompras + 1
    ensures r.nivel == Level(r.puntosLevelUp)
    ensures finalAmount >= 0 ==>
              var earned := r.puntosLevelUp - u.puntosLevelUp;
              0 <= earned && earned * UNITS_PER_POINT <= finalAmount < (earned + 1) * UNITS_PER_POINT
    ensures finalAmount >= 0 && u.nivel <= Level(u.puntosLevelUp) ==> r.nivel >= u.nivel
  {
    var points := u.puntosLevelUp + Quot(finalAmount, UNITS_PER_POINT);
    u.(puntosLevelUp := points, nivel := Level(points), totalCompras := u.totalCompras + 1)
  }

  /** The accrual examples: below 1000 earns nothing; 2500 earns 2; 60000 earns 60 and lifts 450 points to level 2. */
  lemma AccrueExamples(u: User)
    ensures var r := Accrue(u.(puntosLevelUp := 0, nivel := 1), 999); r.puntosLevelUp == 0 && r.nivel == 1
    ensures var r := Accrue(u.(puntosLevelUp := 400, nivel := 1), 2500); r.puntosLevelUp == 402 && r.nivel == 1
    ensures var r := Accrue(u.(puntosLevelUp := 450, nivel := 1), 60000); r.puntosLevelUp == 510 && r.nivel == 2
  {
  }

  /**
   * The guarded checkout both cart implementations share: an empty cart is
   * refused first, then a missing user; otherwise the request carrying
   * `amounts` is sent, and only a confirmed order clears the cart and
   * accrues points on the final amount. `writeFailure` holds the message of
   * an exception thrown by the local writes that follow a confirmed order;
   * it lands in the same catch as a failed request.
   */
  function PlaceOrder(items: seq<CartItem>, s: CartState, amounts: Totals, now: int, reply: Reply<()>,
                      writeFailure: Option<string>): (c: Checkout)
    ensures |items| == 0 ==> c == Checkout(s.(error := Some(EMPTY_CART_ERROR)), None, items, None)
    ensures |items| > 0 && s.currentUser.None? ==>
              c == Checkout(s.(error := Some(LOGIN_REQUIRED_ERROR)), None, items, None)
    ensures c.request.Some? <==> |items| > 0 && s.currentUser.Some?
    ensures c.request.Some? ==>
              c.request.value == OrderRequest(s.currentUser.value.id, amounts.subtotal, amounts.discount,
                                              amounts.total, ORDER_COMPLETED, now, ItemsJson(items))
    ensures c.request.Some? ==> !c.state.isProcessingOrder && c.state.currentUser == s.currentUser
    ensures c.savedUser.Some? <==> c.request.Some? && reply.Confirmed? && writeFailure.None?
    ensures c.request.Some? && reply.Confirmed? && writeFailure.Some? ==>
              c.state == s.(isProcessingOrder := false, error := Some(ORDER_ERROR_PREFIX + writeFailure.value))
              && c.cart == items
    ensures c.savedUser.Some? ==>
              c.savedUser == Some(Accrue(s.currentUser.value, amounts.total))
              && c.cart == [] && c.state.orderSuccess && c.state.error == None
    ensures c.savedUser.None? ==> c.cart == items && c.state.orderSuccess == s.orderSuccess && c.state.error.Some?
    ensures c.savedUser.Some? ==> c.state == s.(isProcessingOrder := false, orderSuccess := true, error := None)
    ensures c.request.Some? && reply.NotConfirmed? ==>
              c.state == s.(isProcessingOrder := false, error := Some(ORDER_NOT_CONFIRMED_ERROR))
    ensures c.request.Some? && reply.Failed? ==>
              c.state == s.(isProcessingOrder := false, error := Some(ORDER_ERROR_PREFIX + reply.message))
  {
    if |items| == 0 then Checkout(s.(error := Some(EMPTY_CART_ERROR)), None, items, None)
    else if s.currentUser.None? then Checkout(s.(error := Some(LOGIN_REQUIRED_ERROR)), None, items, None)
    else
      var user := s.currentUser.value;
      var request := OrderRequest(user.id, amounts.subtotal, amounts.discount, amounts.total,
                                  ORDER_COMPLETED, now, ItemsJson(items));
      match reply
      case Confirmed(_) =>
        if writeFailure.Some? then
          Checkout(s.(isProcessingOrder := false, error := Some(ORDER_ERROR_PREFIX + writeFailure.value)),
                   Some(request), items, None)
        else
          Checkout(s.(isProcessingOrder := false, orderSuccess := true, error := None),
                   Some(request), [], Some(Accrue(user, amounts.total)))
      case NotConfirmed =>
        Checkout(s.(isProcessingOrder := false, error := Some(ORDER_NOT_CONFIRMED_ERROR)), Some(request), items, None)
      case Failed(message) =>
        Checkout(s.(isProcessingOrder := false, error := Some(ORDER_ERROR_PREFIX + message)), Some(request), items, None)
  }

  /**
   * The amounts `processOrder` computes at checkout: the subtotal, the
   * user's discount on it, and their plain difference (not clamped).
   */
  function CheckoutAmounts(items: seq<CartItem>, u: Option<User>): (t: Totals)
    ensures t.subtotal == Price(items, u).subtotal && t.discount == Price(items, u).discount
    ensures t.total == t.subtotal - t.discount
    ensures NonNegativeCart(items) ==> t == Price(items, u)
  {
    var sub := Subtotal(items);
    var disc := DiscountAmount(sub, UserDiscountPercent(u));
    Totals(sub, disc, sub - disc)
  }

  /** `processOrder`, with the clock reading, the backend's reply and the local writes' outcome passed in. */
  function ProcessOrder(items: seq<CartItem>, s: CartState, now: int, reply: Reply<()>,
                        writeFailure: Option<string>): (c: Checkout)
    ensures c.request.Some? <==> |items| > 0 && s.currentUser.Some?
    ensures c.request.Some? ==>
              var r := c.request.value;
              r.montoTotal == Subtotal(items) && r.montoFinal == r.montoTotal - r.montoDescuento
              && r.montoDescuento == DiscountAmount(r.montoTotal, UserDiscountPercent(s.currentUser))
    ensures c.request.Some? && NonNegativeCart(items) ==>
              var p := Price(items, s.currentUser);
              c.request.value.montoDescuento == p.discount && c.request.value.montoFinal == p.total
  {
    PlaceOrder(items, s, CheckoutAmounts(items, s.currentUser), now, reply, writeFailure)
  }

  /**
   * A confirmed order whose local writes throw is reported as a failed
   * order: the cart and the user stay as they were, and no success is shown.
   */
  lemma ConfirmedButWriteFailed(items: seq<CartItem>, s: CartState, now: int, message: string)
    requires |items| > 0 && s.currentUser.Some?
    ensures var c := ProcessOrder(items, s, now, Confirmed(()), Some(message));
            c.request.Some? && c.savedUser.None? && c.cart == items
            && c.state.orderSuccess == s.orderSuccess && c.state.error == Some(ORDER_ERROR_PREFIX + message)
  {
  }

  /** A successfully cleared cart is refused at checkout as empty, and nothing is sent. */
  lemma ClearedCartRefusesOrder(items: seq<CartItem>, s: CartState, now: int, reply: Reply<()>,
                                writeFailure: Option<string>)
    ensures var cleared := ClearCart(items, s, None);
            var c := ProcessOrder(cleared.items, cleared.state, now, reply, writeFailure);
            c.request.None? && c.savedUser.None? && c.cart == []
            && c.state == s.(error := Some(EMPTY_CART_ERROR))
  {
  }

  /** A confirmed order never takes points away and leaves the level matching the new balance. */
  lemma ProcessOrderAccrual(items: seq<CartItem>, s: CartState, now: int)
    requires |items| > 0 && s.currentUser.Some? && NonNegativeCart(items)
    ensures var c := ProcessOrder(items, s, now, Confirmed(()), None);
            var u, v := s.currentUser.value, c.savedUser.value;
            c.savedUser.Some? && c.cart == []
            && v.puntosLevelUp == u.puntosLevelUp + Price(items, s.currentUser).total / UNITS_PER_POINT
            && v.puntosLevelUp >= u.puntosLevelUp && v.nivel == Level(v.puntosLevelUp)
  {
  }
}

=== FILE: catalog.dfy ===
/**
 * The catalog screen: remote products turned into entities with defaults
 * for the missing fields, the list filtered by category and by a
 * case-insensitive search, the distinct category list, and adding a
 * product to the cart.
 */
module Catalog {
  import opened Wrappers
  import opened Text
  import opened Seqs
  import opened Entities
  import opened Cart

  /** The category that disables the category filter. */
  const ALL_CATEGORIES: string := "Todas"
  const ADD_TO_CART_ERROR_PREFIX: string := "Error al agregar al carrito: "

  /** `CatalogState`. */
  datatype CatalogState = CatalogState(
    searchQuery: string,
    selectedCategory: string,
    isLoading: bool,
    error: Option<string>)

  /** `CatalogState()`: an empty query and every category. */
  const INITIAL_STATE: CatalogState := CatalogState("", ALL_CATEGORIES, false, None)

  // ---------------------------------------------------------------------
  // Remote products
  // ---------------------------------------------------------------------

  /**
   * `ProductoRemoto` as the server sends it: every field but the id may be
   * missing. The price arrives already truncated to a whole number and the
   * rating is not kept.
   */
  datatype RemoteProduct = RemoteProduct(
    id: int,
    nombre: Option<string>,
    precio: Option<int>,
    categoria: Option<string>,
    codigo: Option<string>,
    stock: Option<int>,
    descripcion: Option<string>,
    urlImagen: Option<string>,
    fabricante: Option<string>,
    destacado: Option<bool>)

  const DEFAULT_CODE: string := "N/A"
  const DEFAULT_CATEGORY: string := "General"
  const DEFAULT_NAME: string := "Producto Desconocido"

  /** `toProductoEntidad`: each missing field replaced by its default. */
  function ToEntity(p: RemoteProduct): (e: Product)
    ensures e.id == p.id
    ensures e.codigo == (if p.codigo.Some? then p.codigo.value else DEFAULT_CODE)
    ensures e.categoria == (if p.categoria.Some? then p.categoria.value else DEFAULT_CATEGORY)
    ensures e.nombre == (if p.nombre.Some? then p.nombre.value else DEFAULT_NAME)
    ensures e.precio == (if p.precio.Some? then p.precio.value else 0)
    ensures e.stock == (if p.stock.Some? then p.stock.value else 0)
    ensures e.descripcion == (if p.descripcion.Some? then p.descripcion.value else "")
    ensures e.urlImagen == (if p.urlImagen.Some? then p.urlImagen.value else "")
    ensures e.fabricante == (if p.fabricante.Some? then p.fabricante.value else "")
    ensures e.destacado == (p.destacado == Some(true))
  {
    Product(
      p.id,
      p.codigo.GetOr(DEFAULT_CODE),
      p.categoria.GetOr(DEFAULT_CATEGORY),
      p.nombre.GetOr(DEFAULT_NAME),
      p.precio.GetOr(0),
      p.stock.GetOr(0),
      p.descripcion.GetOr(""),
      p.urlImagen.GetOr(""),
      p.fabricante.GetOr(""),
      p.destacado.GetOr(false))
  }

  /** The remote form of an entity with every field present. */
  function FromEntity(e: Product): (p: RemoteProduct)
    ensures p.id == e.id && p.nombre.Some? && p.categoria.Some? && p.precio.Some?
  {
    RemoteProduct(e.id, Some(e.nombre), Some(e.precio), Some(e.categoria), Some(e.codigo), Some(e.stock),
                  Some(e.descripcion), Some(e.urlImagen), Some(e.fabricante), Some(e.destacado))
  }

  /** A product sent with every field loses nothing on the way in. */
  lemma ToEntityFromEntity(e: Product)
    ensures ToEntity(FromEntity(e)) == e
  {
  }

  /** A product sent with no optional field at all comes out as the placeholder product. */
  lemma ToEntityAllMissing(id: int)
    ensures ToEntity(RemoteProduct(id, None, None, None, None, None, None, None, None, None))
            == Product(id, "N/A", "General", "Producto Desconocido", 0, 0, "", "", "", false)
  {
  }

  /** `remoteProducts.map { it.toProductoEntidad() }`. */
  function ToEntities(remote: seq<RemoteProduct>): (r: seq<Product>)
    ensures |r| == |remote|
    ensures forall i :: 0 <= i < |remote| ==> r[i] == ToEntity(remote[i])
  {
    seq(|remote|, i requires 0 <= i < |remote| => ToEntity(remote[i]))
  }

  // ---------------------------------------------------------------------
  // Filtering
  // ---------------------------------------------------------------------

  /** The category test: every category is selected, or exactly the product's. */
  predicate MatchesCategory(s: CatalogState, p: Product) {
    s.selectedCategory == ALL_CATEGORIES || p.categoria == s.selectedCategory
  }

  /** The search test: no query, or the query in the name or the description, ignoring case. */
  predicate MatchesSearch(s: CatalogState, p: Product) {
    IsBlank(s.searchQuery) || ContainsIgnoreCase(p.nombre, s.searchQuery) || ContainsIgnoreCase(p.descripcion, s.searchQuery)
  }

  predicate Shown(s: CatalogState, p: Product) {
    MatchesCategory(s, p) && MatchesSearch(s, p)
  }

  /**
   * `products`: the mapped products that pass both tests, in the order the
   * server sent them.
   */
  function Products(remote: seq<RemoteProduct>, s: CatalogState): (r: seq<Product>)
    ensures IsSubsequence(r, ToEntities(remote))
    ensures forall i :: 0 <= i < |r| ==> Shown(s, r[i])
    ensures forall i :: 0 <= i < |r| ==> (s.selectedCategory == ALL_CATEGORIES || r[i].categoria == s.selectedCategory)
    ensures forall i :: 0 <= i < |r| ==>
              IsBlank(s.searchQuery) || OccursIgnoreCase(r[i].nombre, s.searchQuery)
              || OccursIgnoreCase(r[i].descripcion, s.searchQuery)
    ensures forall i :: 0 <= i < |remote| && Shown(s, ToEntity(remote[i])) ==> ToEntity(remote[i]) in r
    ensures forall x :: Count(r, x) == if Shown(s, x) then Count(ToEntities(remote), x) else 0
  {
    var all := ToEntities(remote);
    var r := Filter((p: Product) => Shown(s, p), all);
    assert forall i :: 0 <= i < |remote| ==> all[i] == ToEntity(remote[i]);
    forall i | 0 <= i < |r|
      ensures (s.selectedCategory == ALL_CATEGORIES || r[i].categoria == s.selectedCategory)
              && (IsBlank(s.searchQuery) || OccursIgnoreCase(r[i].nombre, s.searchQuery)
                  || OccursIgnoreCase(r[i].descripcion, s.searchQuery))
    {
      assert Shown(s, r[i]);
    }
    r
  }

  /** With every category and a blank query, the whole list is shown. */
  lemma ProductsUnfiltered(remote: seq<RemoteProduct>, s: CatalogState)
    requires s.selectedCategory == ALL_CATEGORIES && IsBlank(s.searchQuery)
    ensures Products(remote, s) == ToEntities(remote)
  {
    FilterKeepsAll((p: Product) => Shown(s, p), ToEntities(remote));
  }

  /** The screen opens on the whole list. */
  lemma InitialStateShowsAll(remote: seq<RemoteProduct>)
    ensures Products(remote, INITIAL_STATE) == ToEntities(remote)
  {
    ProductsUnfiltered(remote, INITIAL_STATE);
  }

  /** `updateSearchQuery`: only the query changes. */
  function UpdateSearchQuery(s: CatalogState, query: string): (r: CatalogState)
    ensures r.searchQuery == query
    ensures r.(searchQuery := s.searchQuery) == s
  {
    s.(searchQuery := query)
  }

  /** `updateSelectedCategory`: only the selected category changes. */
  function UpdateSelectedCategory(s: CatalogState, category: string): (r: CatalogState)
    ensures r.selectedCategory == category
    ensures r.(selectedCategory := s.selectedCategory) == s
  {
    s.(selectedCategory := category)
  }

  /** `clearError`: the error goes away and nothing else changes. */
  function ClearError(s: CatalogState): (r: CatalogState)
    ensures r.error.None?
    ensures r.(error := s.error) == s
  {
    s.(error := None)
  }

  /** Clearing the search after picking a category shows exactly that category's products. */
  lemma ClearedSearchShowsCategory(remote: seq<RemoteProduct>, s: CatalogState, category: string)
    requires category != ALL_CATEGORIES
    ensures var r := Products(remote, UpdateSearchQuery(UpdateSelectedCategory(s, category), ""));
            (forall i :: 0 <= i < |r| ==> r[i].categoria == category)
            && (forall i :: 0 <= i < |remote| && ToEntity(remote[i]).categoria == category ==> ToEntity(remote[i]) in r)
  {
    assert IsBlank("");
  }

  // ---------------------------------------------------------------------
  // Categories
  // ---------------------------------------------------------------------

  /** The positions of the products that carry a category, in increasing order. */
  function CategoryPositions(remote: seq<RemoteProduct>): (pos: seq<nat>)
    ensures forall k :: 0 <= k < |pos| ==> pos[k] < |remote| && remote[pos[k]].categoria.Some?
    ensures forall k, l :: 0 <= k < l < |pos| ==> pos[k] < pos[l]
    ensures forall i :: 0 <= i < |remote| && remote[i].categoria.Some? ==> i in pos
  {
    if |remote| == 0 then []
    else
      var n := |remote| - 1;
      var pre := CategoryPositions(remote[..n]);
      if remote[n].categoria.Some? then pre + [n] else pre
  }

  /**
   * `list.map { it.categoria }.filterNotNull()`: the category of every
   * product that has one, in product order, repeats kept.
   */
  function PresentCategories(remote: seq<RemoteProduct>): (r: seq<string>)
    ensures var pos := CategoryPositions(remote);
            |r| == |pos| && forall k :: 0 <= k < |r| ==> remote[pos[k]].categoria == Some(r[k])
    ensures |r| <= |remote|
    ensures forall x :: x in r <==> exists i :: 0 <= i < |remote| && remote[i].categoria == Some(x)
  {
    if |remote| == 0 then []
    else
      var n := |remote| - 1;
      var pre := PresentCategories(remote[..n]);
      PresentCategoriesStep(remote);
      match remote[n].categoria
      case Some(c) => pre + [c]
      case None => pre
  }

  /** The prefix's positions and categories carry over to the whole list. */
  lemma PresentCategoriesStep(remote: seq<RemoteProduct>)
    requires |remote| > 0
    ensures var n := |remote| - 1;
            var pos := CategoryPositions(remote[..n]);
            forall k :: 0 <= k < |pos| ==> remote[pos[k]] == remote[..n][pos[k]]
  {
  }

  /** The position of the first occurrence of `x` in `s`. */
  function FirstIndex(s: seq<string>, x: string): (k: nat)
    requires x in s
    ensures k < |s| && s[k] == x && x !in s[..k]
  {
    if s[0] == x then 0 else FirstIndex(s[1..], x) + 1
  }

  /** The first occurrence of an element of the prefix is where it was in the prefix. */
  lemma {:induction false} FirstIndexInPrefix(s: seq<string>, n: nat, x: string)
    requires n <= |s| && x in s[..n]
    ensures FirstIndex(s, x) == FirstIndex(s[..n], x)
  {
    if s[0] != x {
      assert s[1..][..n - 1] == s[..n][1..];
      FirstIndexInPrefix(s[1..], n - 1, x);
    }
  }

  /**
   * `distinct()`: each value once, at the place it first appears. The
   * reference definition grows the result from the front of `s`.
   */
  function Distinct(s: seq<string>): (r: seq<string>)
    ensures NoDuplicates(r)
    ensures forall x :: x in r <==> x in s
    ensures forall i, j :: 0 <= i < j < |r| ==> FirstIndex(s, r[i]) < FirstIndex(s, r[j])
  {
    if |s| == 0 then []
    else
      var prefix := s[..|s| - 1];
      var last := s[|s| - 1];
      var r := Distinct(prefix);
      assert s == prefix + [last];
      forall i | 0 <= i < |r| ensures FirstIndex(s, r[i]) == FirstIndex(prefix, r[i]) {
        FirstIndexInPrefix(s, |s| - 1, r[i]);
      }
      if last in r then r
      else
        assert FirstIndex(s, last) == |s| - 1;
        r + [last]
  }

  /** `distinct()` as Kotlin runs it: one pass, remembering the values already seen. */
  method DistinctInOrder(s: seq<string>) returns (r: seq<string>)
    ensures r == Distinct(s)
  {
    r := [];
    var seen: set<string> := {};
    for n := 0 to |s|
      invariant r == Distinct(s[..n])
      invariant forall x :: x in seen <==> x in s[..n]
    {
      assert s[..n + 1][..n] == s[..n];
      if s[n] !in seen {
        r := r + [s[n]];
      }
      seen := seen + {s[n]};
    }
    assert s[..|s|] == s;
  }

  /**
   * `categories`: the categories sent, without repeats, in the order they
   * first appear; products without a category contribute nothing.
   */
  function Categories(remote: seq<RemoteProduct>): (r: seq<string>)
    ensures NoDuplicates(r)
    ensures forall x :: x in r <==> exists i :: 0 <= i < |remote| && remote[i].categoria == Some(x)
    ensures forall i, j :: 0 <= i < j < |r| ==>
              FirstIndex(PresentCategories(remote), r[i]) < FirstIndex(PresentCategories(remote), r[j])
  {
    Distinct(PresentCategories(remote))
  }

  /** The position of the first product that carries category `x`. */
  ghost function FirstProductWith(remote: seq<RemoteProduct>, x: string): (k: nat)
    requires exists i :: 0 <= i < |remote| && remote[i].categoria == Some(x)
    ensures k < |remote| && remote[k].categoria == Some(x)
    ensures forall i :: 0 <= i < k ==> remote[i].categoria != Some(x)
  {
    if remote[0].categoria == Some(x) then 0
    else
      var i :| 0 <= i < |remote| && remote[i].categoria == Some(x);
      assert remote[1..][i - 1] == remote[i];
      1 + FirstProductWith(remote[1..], x)
  }

  /** A category's first product is the one behind its first occurrence in the present categories. */
  lemma FirstProductAtFirstIndex(remote: seq<RemoteProduct>, x: string)
    requires x in PresentCategories(remote)
    ensures FirstProductWith(remote, x) == CategoryPositions(remote)[FirstIndex(PresentCategories(remote), x)]
  {
    var present, pos := PresentCategories(remote), CategoryPositions(remote);
    var f, k := FirstIndex(present, x), FirstProductWith(remote, x);
    assert remote[pos[f]].categoria == Some(x);
    var m :| 0 <= m < |pos| && pos[m] == k;
    assert present[m] == x;
  }

  /** The category list follows the order in which each category's first product appears. */
  lemma CategoriesInProductOrder(remote: seq<RemoteProduct>)
    ensures var r := Categories(remote);
            forall i, j :: 0 <= i < j < |r| ==> FirstProductWith(remote, r[i]) < FirstProductWith(remote, r[j])
  {
    var r, present := Categories(remote), PresentCategories(remote);
    forall i, j | 0 <= i < j < |r|
      ensures FirstProductWith(remote, r[i]) < FirstProductWith(remote, r[j])
    {
      FirstProductAtFirstIndex(remote, r[i]);
      FirstProductAtFirstIndex(remote, r[j]);
    }
  }

  // ---------------------------------------------------------------------
  // Adding to the cart
  // ---------------------------------------------------------------------

  /** `obtenerItemPorProductoId`: the first row of that product, if any. */
  function FindByProduct(items: seq<CartItem>, productoId: int): (r: Option<CartItem>)
    ensures r.None? <==> forall i :: 0 <= i < |items| ==> items[i].productoId != productoId
    ensures r.Some? ==> r.value in items && r.value.productoId == productoId
    ensures r.Some? ==> exists k :: 0 <= k < |items| && items[k] == r.value
                                    && forall i :: 0 <= i < k ==> items[i].productoId != productoId
  {
    if |items| == 0 then None
    else if items[0].productoId == productoId then Some(items[0])
    else
      var r := FindByProduct(items[1..], productoId);
      assert forall i :: 1 <= i < |items| ==> items[i] == items[1..][i - 1];
      if r.Some? then
        var k :| 0 <= k < |items[1..]| && items[1..][k] == r.value
                 && forall i :: 0 <= i < k ==> items[1..][i].productoId != productoId;
        assert items[k + 1] == r.value;
        r
      else r
  }

  /** The cart and the catalog state after `addToCart`. */
  datatype AddOutcome = AddOutcome(items: seq<CartItem>, state: CatalogState)

  /**
   * `addToCart`, with the storage outcome passed in: `failure` holds the
   * message of a storage exception. A product already in the cart gets one
   * more unit; otherwise a row with one unit, the product's name and price,
   * and the id storage assigns (`newId`) is added.
   */
  function AddToCart(items: seq<CartItem>, s: CatalogState, product: Product, newId: int, failure: Option<string>): (r: AddOutcome)
    ensures failure.Some? ==> r == AddOutcome(items, s.(error := Some(ADD_TO_CART_ERROR_PREFIX + failure.value)))
    ensures failure.None? ==> r.state == s
    ensures failure.None? && FindByProduct(items, product.id).None? ==>
              r.items == items + [CartItem(newId, product.id, product.nombre, product.precio, 1)]
    ensures failure.None? && FindByProduct(items, product.id).Some? ==>
              |r.items| == |items|
              && forall i :: 0 <= i < |items| ==>
                   r.items[i] == if items[i].productoId == product.id
                                 then items[i].(cantidad := FindByProduct(items, product.id).value.cantidad + 1)
                                 else items[i]
  {
    if failure.Some? then AddOutcome(items, s.(error := Some(ADD_TO_CART_ERROR_PREFIX + failure.value)))
    else
      var found := FindByProduct(items, product.id);
      if found.Some? then AddOutcome(SetQuantity(items, product.id, found.value.cantidad + 1), s)
      else AddOutcome(items + [CartItem(newId, product.id, product.nombre, product.precio, 1)], s)
  }

  /** Appending a row adds its units to the count. */
  lemma {:induction false} ItemCountAppend(items: seq<CartItem>, row: CartItem)
    ensures ItemCount(items + [row]) == ItemCount(items) + row.cantidad
  {
    if |items| == 0 {
      assert items + [row] == [row];
      assert [row][1..] == [];
    } else {
      assert (items + [row])[1..] == items[1..] + [row];
      ItemCountAppend(items[1..], row);
    }
  }

  /** Raising the units of a row already in the cart keeps the cart well formed and adds that many units. */
  lemma RaiseExistingRow(items: seq<CartItem>, existing: CartItem)
    requires WellFormedCart(items) && existing in items
    ensures var r := SetQuantity(items, existing.productoId, existing.cantidad + 1);
            WellFormedCart(r) && ItemCount(r) == ItemCount(items) + 1
  {
    var r := SetQuantity(items, existing.productoId, existing.cantidad + 1);
    SetRowEffect(items, existing, existing.cantidad + 1);
    assert forall i :: 0 <= i < |r| ==> r[i].id == items[i].id && r[i].productoId == items[i].productoId;
  }

  /** Appending a row of a new product under a fresh id keeps the cart well formed and adds its one unit. */
  lemma AppendNewRow(items: seq<CartItem>, row: CartItem)
    requires WellFormedCart(items) && row.cantidad == 1
    requires forall i :: 0 <= i < |items| ==> items[i].id != row.id && items[i].productoId != row.productoId
    ensures WellFormedCart(items + [row]) && ItemCount(items + [row]) == ItemCount(items) + 1
  {
    ItemCountAppend(items, row);
    var r := items + [row];
    assert forall i :: 0 <= i < |items| ==> r[i] == items[i];
  }

  /** Adding a product already in a well-formed cart raises its row by one unit. */
  lemma AddExistingEffect(items: seq<CartItem>, s: CatalogState, product: Product, newId: int)
    requires WellFormedCart(items) && FindByProduct(items, product.id).Some?
    ensures var r := AddToCart(items, s, product, newId, None).items;
            WellFormedCart(r) && ItemCount(r) == ItemCount(items) + 1
  {
    var e := FindByProduct(items, product.id).value;
    var r := AddToCart(items, s, product, newId, None).items;
    var q := SetQuantity(items, e.productoId, e.cantidad + 1);
    assert forall i :: 0 <= i < |r| ==> r[i] == q[i];
    RaiseExistingRow(items, e);
  }

  /** Adding a product missing from a well-formed cart, under a fresh id, appends one row of one unit. */
  lemma AddMissingEffect(items: seq<CartItem>, s: CatalogState, product: Product, newId: int)
    requires WellFormedCart(items) && FindByProduct(items, product.id).None?
    requires forall i :: 0 <= i < |items| ==> items[i].id != newId
    ensures var r := AddToCart(items, s, product, newId, None).items;
            WellFormedCart(r) && ItemCount(r) == ItemCount(items) + 1
  {
    var row := CartItem(newId, product.id, product.nombre, product.precio, 1);
    assert AddToCart(items, s, product, newId, None).items == items + [row];
    AppendNewRow(items, row);
  }

  /**
   * On a well-formed cart, a successful add keeps the cart well formed and
   * the cart holds exactly one more unit, whichever branch is taken.
   */
  lemma AddToCartEffect(items: seq<CartItem>, s: CatalogState, product: Product, newId: int)
    requires WellFormedCart(items)
    requires forall i :: 0 <= i < |items| ==> items[i].id != newId
    ensures var r := AddToCart(items, s, product, newId, None).items;
            WellFormedCart(r) && ItemCount(r) == ItemCount(items) + 1
  {
    if FindByProduct(items, product.id).Some? {
      AddExistingEffect(items, s, product, newId);
    } else {
      AddMissingEffect(items, s, product, newId);
    }
  }
}

=== FILE: entities.dfy ===
/** The records the view-models share: the signed-in user, a cart row and a catalog product. */
module Entities {

  /**
   * `UsuarioEntidad`, restricted to the fields the view-models read:
   * loyalty points `puntosLevelUp`, loyalty level `nivel`, the Duoc
   * student flag `esDuoc` and the number of completed purchases.
   */
  datatype User = User(
    id: int,
    nombre: string,
    correo: string,
    esDuoc: bool,
    puntosLevelUp: int,
    nivel: int,
    totalCompras: int)

  /** One cart row (`CarritoEntidad` as the cart screen sees it): unit price `precio`, quantity `cantidad`. */
  datatype CartItem = CartItem(
    id: int,
    productoId: int,
    nombre: string,
    precio: int,
    cantidad: int)

  /** `ProductoEntidad`, the catalog's product, without its floating-point rating. */
  datatype Product = Product(
    id: int,
    codigo: string,
    categoria: string,
    nombre: string,
    precio: int,
    stock: int,
    descripcion: string,
    urlImagen: string,
    fabricante: string,
    destacado: bool)

  /** Every price and quantity in the cart is non-negative, as the screens only ever produce. */
  predicate NonNegativeCart(items: seq<CartItem>) {
    forall i :: 0 <= i < |items| ==> items[i].precio >= 0 && items[i].cantidad >= 0
  }
}

=== FILE: numerals.dfy ===
/**
 * Kotlin's `Int` as the storefront uses it: decimal rendering (`toString`,
 * string templates), parsing (`toIntOrNull`) and division, which truncates
 * toward zero where Dafny's `/` is Euclidean.
 */
module Numerals {
  import opened Wrappers

  /** The range of Kotlin's 32-bit `Int`. */
  const INT_MIN: int := -0x8000_0000
  const INT_MAX: int := 0x7fff_ffff

  predicate IsDigit(c: char) {
    '0' <= c <= '9'
  }

  predicate AllDigits(s: string) {
    forall i :: 0 <= i < |s| ==> IsDigit(s[i])
  }

  function DigitValue(c: char): (d: nat)
    requires IsDigit(c)
    ensures d < 10
  {
    c as int - '0' as int
  }

  function DigitChar(d: nat): (c: char)
    requires d < 10
    ensures IsDigit(c) && DigitValue(c) == d
  {
    ('0' as int + d) as char
  }

  /** The number a string of decimal digits denotes, read left to right. */
  function DigitsValue(ds: string): nat
    requires AllDigits(ds)
  {
    if |ds| == 0 then 0 else DigitsValue(ds[..|ds| - 1]) * 10 + DigitValue(ds[|ds| - 1])
  }

  /** `n.toString()` for a non-negative `n`: its shortest decimal digits. */
  function NatToString(n: nat): (r: string)
    ensures |r| > 0 && AllDigits(r)
    ensures DigitsValue(r) == n
    ensures r[0] == '0' ==> n == 0
    ensures '-' !in r
  {
    if n < 10 then [DigitChar(n)]
    else
      var r := NatToString(n / 10) + [DigitChar(n % 10)];
      assert r[..|r| - 1] == NatToString(n / 10);
      r
  }

  /** Four digits from 1000 up, five from 10000 up to 99999. */
  lemma {:induction false} NatToStringLength(n: nat)
    ensures 1000 <= n < 10000 ==> |NatToString(n)| == 4
    ensures 10000 <= n < 100000 ==> |NatToString(n)| == 5
  {
    if n >= 10 {
      NatToStringLength(n / 10);
      if n >= 100 {
        NatToStringLength(n / 100);
        if n >= 1000 {
          NatToStringLength(n / 1000);
        }
      }
    }
  }

  /** `n.toString()`: a minus sign before the digits of a negative number. */
  function IntToString(n: int): (r: string)
    ensures |r| > 0
    ensures ':' !in r && ';' !in r
  {
    if n < 0 then "-" + NatToString(-n) else NatToString(n)
  }

  /**
   * `toIntOrNull()`: an optional `+` or `-`, then one or more decimal
   * digits, whose value fits in an `Int`; anything else is `None`.
   */
  function ParseInt(s: string): (r: Option<int>)
    ensures r.Some? ==> INT_MIN <= r.value <= INT_MAX
    ensures r.Some? ==> |s| > 0 && (IsDigit(s[0]) || s[0] == '-' || s[0] == '+')
  {
    if |s| == 0 then None
    else if s[0] == '-' || s[0] == '+' then
      var ds := s[1..];
      if |ds| == 0 || !AllDigits(ds) then None
      else
        var v: int := if s[0] == '-' then -(DigitsValue(ds) as int) else DigitsValue(ds);
        if INT_MIN <= v <= INT_MAX then Some(v) else None
    else if !AllDigits(s) then None
    else if DigitsValue(s) <= INT_MAX then Some(DigitsValue(s))
    else None
  }

  /** Rendering an `Int` and parsing it back gives the same `Int`. */
  lemma ParseIntToString(n: int)
    requires INT_MIN <= n <= INT_MAX
    ensures ParseInt(IntToString(n)) == Some(n)
  {
    if n < 0 {
      assert IntToString(n)[1..] == NatToString(-n);
    }
  }

  /** A string with a character other than a sign or a digit never parses. */
  lemma ParseIntRejectsNonNumeric(s: string, i: nat)
    requires i < |s| && !IsDigit(s[i])
    requires i > 0 || (s[0] != '-' && s[0] != '+')
    ensures ParseInt(s) == None
  {
    if i > 0 && (s[0] == '-' || s[0] == '+') {
      assert !IsDigit(s[1..][i - 1]);
    }
  }

  /** Euclidean division of a non-negative number: the quotient is the number of whole `b`s in `a`. */
  lemma DivBounds(a: int, b: int)
    requires a >= 0 && b > 0
    ensures 0 <= a / b && (a / b) * b <= a < (a / b) * b + b
  {
    var q, r := a / b, a % b;
    assert a == b * q + r && 0 <= r < b;
    assert q * b == b * q;
  }

  /** Kotlin's `a / b` for a positive divisor: the quotient truncated toward zero. */
  function Quot(a: int, b: int): (q: int)
    requires b > 0
    ensures a >= 0 ==> q >= 0 && q * b <= a < q * b + b
    ensures a < 0 ==> q <= 0 && q * b - b < a <= q * b
  {
    if a >= 0 then
      DivBounds(a, b);
      a / b
    else
      DivBounds(-a, b);
      var q := (-a) / b;
      assert (-q) * b == -(q * b);
      -q
  }

  /** `x.coerceAtLeast(lo)`. */
  function CoerceAtLeast(x: int, lo: int): (r: int)
    ensures r >= lo && r >= x
    ensures r == x || r == lo
  {
    if x < lo then lo else x
  }
}

=== FILE: profile.dfy ===
/**
 * The profile screen's helpers: the "next level / points still needed"
 * table, the discount percent shown to the user, the edit-mode and error
 * toggles, and the guarded submission of a review of the app itself.
 */
module Profile {
  import opened Wrappers
  import opened Text
  import opened Entities
  import opened Validation
  import opened Cart

  const REVIEW_LOGIN_ERROR: string := "Debes iniciar sesión para dejar una reseña"
  const APP_REVIEW_NOT_CONFIRMED_ERROR: string := "Error al enviar la reseña: El servidor no confirmó el guardado."
  const APP_REVIEW_ERROR_PREFIX: string := "Error al enviar la reseña: "

  /** `ProfileState`, without the list of past orders (only their total is kept). */
  datatype ProfileState = ProfileState(
    isLoading: bool,
    error: Option<string>,
    isEditing: bool,
    currentUser: Option<User>,
    totalSpent: int,
    isSubmittingReview: bool,
    reviewSubmitSuccess: bool)

  // ---------------------------------------------------------------------
  // Level progress
  // ---------------------------------------------------------------------

  /** The points the profile screen names as the goal of each level; 0 past level 4. */
  function NextLevelThreshold(nivel: int): (thr: int)
    ensures 1 <= nivel <= 4 ==> thr == LevelThreshold(nivel + 1)
    ensures !(1 <= nivel <= 4) ==> thr == 0
  {
    match nivel
    case 1 => 500
    case 2 => 2352
    case 3 => 5880
    case 4 => 11760
    case _ => 0
  }

  /** The pair `getUserLevelInfo` returns: the next level and the points still missing for it. */
  datatype LevelInfo = LevelInfo(nextLevel: int, pointsNeeded: int)

  /** `getUserLevelInfo`. */
  function UserLevelInfo(s: ProfileState): (info: LevelInfo)
    ensures s.currentUser.None? ==> info == LevelInfo(1, 0)
    ensures s.currentUser.Some? ==> info.nextLevel == s.currentUser.value.nivel + 1
    ensures info.pointsNeeded >= 0
    ensures s.currentUser.Some? && 1 <= s.currentUser.value.nivel <= 4 ==>
              var u := s.currentUser.value;
              info.pointsNeeded == if u.puntosLevelUp >= LevelThreshold(u.nivel + 1) then 0
                                   else LevelThreshold(u.nivel + 1) - u.puntosLevelUp
    ensures s.currentUser.Some? && !(1 <= s.currentUser.value.nivel <= 4) && s.currentUser.value.puntosLevelUp >= 0 ==>
              info.pointsNeeded == 0
  {
    match s.currentUser
    case None => LevelInfo(1, 0)
    case Some(u) =>
      LevelInfo(u.nivel + 1, Numerals.CoerceAtLeast(NextLevelThreshold(u.nivel) - u.puntosLevelUp, 0))
  }

  /**
   * For a user whose level matches their points and who is below the top
   * level, the points shown are exactly the ones missing: that many more
   * reach the announced level, and any fewer leave the level unchanged.
   */
  lemma PointsNeededReachNextLevel(s: ProfileState)
    requires s.currentUser.Some?
    requires s.currentUser.value.nivel == Level(s.currentUser.value.puntosLevelUp)
    requires s.currentUser.value.nivel <= 4
    ensures var u, info := s.currentUser.value, UserLevelInfo(s);
            info.pointsNeeded > 0
            && Level(u.puntosLevelUp + info.pointsNeeded) == info.nextLevel
            && forall p :: u.puntosLevelUp <= p < u.puntosLevelUp + info.pointsNeeded ==> Level(p) == u.nivel
  {
  }

  /** At the top level the screen announces level 6 with nothing missing. */
  lemma TopLevelInfo(s: ProfileState)
    requires s.currentUser.Some? && s.currentUser.value.nivel == 5
    requires s.currentUser.value.nivel == Level(s.currentUser.value.puntosLevelUp)
    ensures UserLevelInfo(s) == LevelInfo(6, 0)
  {
  }

  // ---------------------------------------------------------------------
  // Discount and toggles
  // ---------------------------------------------------------------------

  /** `getDiscountPercentage` of the profile screen. */
  function DiscountPercentage(s: ProfileState): (pct: int)
    ensures pct == UserDiscountPercent(s.currentUser)
    ensures (s.currentUser.Some? && !s.currentUser.value.esDuoc
             && s.currentUser.value.nivel == Level(s.currentUser.value.puntosLevelUp)) ==> 5 <= pct <= 15
  {
    match s.currentUser
    case None => 0
    case Some(u) => if u.esDuoc then 20 else LevelDiscount(u.nivel)
  }

  /** The profile and the cart screens always show the same percent for the same user. */
  lemma DiscountAgreesWithCart(s: ProfileState, c: CartState)
    requires s.currentUser == c.currentUser
    ensures DiscountPercentage(s) == Cart.DiscountPercentage(c)
  {
  }

  /** `toggleEditMode`: `isEditing` flips and nothing else changes. */
  function ToggleEditMode(s: ProfileState): (r: ProfileState)
    ensures r.isEditing != s.isEditing
    ensures r.(isEditing := s.isEditing) == s
  {
    s.(isEditing := !s.isEditing)
  }

  /** Toggling twice gives back the state. */
  lemma ToggleEditModeTwice(s: ProfileState)
    ensures ToggleEditMode(ToggleEditMode(s)) == s
  {
  }

  /** `clearError`: the error goes away and nothing else changes. */
  function ClearError(s: ProfileState): (r: ProfileState)
    ensures r.error.None?
    ensures r.(error := s.error) == s
  {
    s.(error := None)
  }

  /** `clearReviewSubmitSuccess`: the success flag drops and nothing else changes. */
  function ClearReviewSubmitSuccess(s: ProfileState): (r: ProfileState)
    ensures !r.reviewSubmitSuccess
    ensures r.(reviewSubmitSuccess := s.reviewSubmitSuccess) == s
  {
    s.(reviewSubmitSuccess := false)
  }

  // ---------------------------------------------------------------------
  // Reviewing the app
  // ---------------------------------------------------------------------

  /** `AppReseniaEntidad` as sent: author, rating and comment (the id and timestamp are assigned later). */
  datatype AppReview = AppReview(usuarioId: int, nombreUsuario: string, valoracion: real, comentario: string)

  /** The state after `submitAppReview`, and the review sent to the server, if any. */
  datatype AppReviewOutcome = AppReviewOutcome(state: ProfileState, sent: Option<AppReview>)

  /**
   * `submitAppReview`, with the server's reply passed in: without a user
   * only the login error is set; otherwise the review carrying the trimmed
   * comment is sent and the reply decides between success and an error.
   */
  function SubmitAppReview(s: ProfileState, rating: real, comment: string, reply: Reply<()>): (r: AppReviewOutcome)
    ensures s.currentUser.None? ==> r == AppReviewOutcome(s.(error := Some(REVIEW_LOGIN_ERROR)), None)
    ensures r.sent.Some? <==> s.currentUser.Some?
    ensures r.sent.Some? ==>
              var u, v := s.currentUser.value, r.sent.value;
              v.usuarioId == u.id && v.nombreUsuario == u.nombre && v.valoracion == rating
              && v.comentario == Trim(comment) && !r.state.isSubmittingReview
    ensures r.sent.Some? ==>
              (r.state.error.None? <==> reply.Confirmed?)
              && r.state.reviewSubmitSuccess == (reply.Confirmed? || s.reviewSubmitSuccess)
              && r.state.(error := s.error, isSubmittingReview := s.isSubmittingReview,
                          reviewSubmitSuccess := s.reviewSubmitSuccess) == s
    ensures r.sent.Some? && reply.NotConfirmed? ==> r.state.error == Some(APP_REVIEW_NOT_CONFIRMED_ERROR)
    ensures r.sent.Some? && reply.Failed? ==> r.state.error == Some(APP_REVIEW_ERROR_PREFIX + reply.message)
  {
    match s.currentUser
    case None => AppReviewOutcome(s.(error := Some(REVIEW_LOGIN_ERROR)), None)
    case Some(user) =>
      var submitting := s.(isSubmittingReview := true);
      var review := AppReview(user.id, user.nombre, rating, Trim(comment));
      var after :=
        match reply
        case Confirmed(_) => submitting.(isSubmittingReview := false, reviewSubmitSuccess := true, error := None)
        case NotConfirmed => submitting.(isSubmittingReview := false, error := Some(APP_REVIEW_NOT_CONFIRMED_ERROR))
        case Failed(message) => submitting.(isSubmittingReview := false, error := Some(APP_REVIEW_ERROR_PREFIX + message));
      AppReviewOutcome(after, Some(review))
  }

  /** The comment sent never starts or ends with white space, and is empty only for a blank input. */
  lemma SubmittedCommentIsTrimmed(s: ProfileState, rating: real, comment: string, reply: Reply<()>)
    requires s.currentUser.Some?
    ensures var c := SubmitAppReview(s, rating, comment, reply).sent.value.comentario;
            (|c| == 0 <==> IsBlank(comment))
            && (|c| > 0 ==> !IsWhitespace(c[0]) && !IsWhitespace(c[|c| - 1]))
  {
  }
}

=== FILE: promo_cart.dfy ===
/**
 * The second `CartViewModel` (kept under the test sources): the same cart,
 * plus a fixed 10 percent discount on a handful of products matched by
 * lower-cased name. The user discount and the product discount are both
 * taken from the raw subtotal and added together.
 */
module PromoCart {
  import opened Wrappers
  import opened Text
  import opened Numerals
  import opened Entities
  import opened Validation
  import opened Cart

  /** `discountedProducts`: the lower-cased names that earn the product discount. */
  const PROMO_NAMES: set<string> :=
    {"catan", "carcassonne", "controlador inalámbrico kairox x", "auriculares gamer starforge cloud ii"}

  /** `productDiscountPercentage`. */
  const PRODUCT_DISCOUNT_PERCENT: int := 10

  /** A row earns the product discount when its lower-cased name is on the list. */
  predicate IsPromoProduct(nombre: string) {
    Lowercase(nombre) in PROMO_NAMES
  }

  /** One row's product discount: 10 percent of its line total, truncated, or nothing off the list. */
  function RowProductDiscount(item: CartItem): (d: int)
    ensures !IsPromoProduct(item.nombre) ==> d == 0
    ensures item.precio >= 0 && item.cantidad >= 0 ==> 0 <= d && d * 10 <= LineTotal(item)
    ensures item.precio >= 0 && item.cantidad >= 0 && IsPromoProduct(item.nombre) ==>
              d * 10 <= LineTotal(item) < d * 10 + 10
  {
    if IsPromoProduct(item.nombre) then Quot(item.precio * item.cantidad * PRODUCT_DISCOUNT_PERCENT, 100) else 0
  }

  /** `productDiscountAmount`: the rows' product discounts added up, each truncated on its own. */
  function ProductDiscount(items: seq<CartItem>): (d: int)
    ensures |items| == 0 ==> d == 0
    ensures NonNegativeCart(items) ==> 0 <= d && d * 10 <= Subtotal(items)
  {
    if |items| == 0 then 0
    else
      assert NonNegativeCart(items) ==> NonNegativeCart(items[1..]) by {
        if NonNegativeCart(items) {
          forall i | 0 <= i < |items[1..]| ensures items[1..][i].precio >= 0 && items[1..][i].cantidad >= 0 {
            assert items[1..][i] == items[i + 1];
          }
        }
      }
      RowProductDiscount(items[0]) + ProductDiscount(items[1..])
  }

  /** A cart with nothing from the list gets no product discount. */
  lemma {:induction false} NoPromoNoProductDiscount(items: seq<CartItem>)
    requires forall i :: 0 <= i < |items| ==> !IsPromoProduct(items[i].nombre)
    ensures ProductDiscount(items) == 0
  {
    if |items| > 0 {
      NoPromoNoProductDiscount(items[1..]);
    }
  }

  /**
   * The figures of this variant: the subtotal as in the main cart, the user
   * discount on the raw subtotal plus the product discount, and the total
   * never below zero.
   */
  function PromoPrice(items: seq<CartItem>, u: Option<User>): (t: Totals)
    ensures t.subtotal == Price(items, u).subtotal
    ensures t.discount == Price(items, u).discount + ProductDiscount(items)
    ensures t.total == FinalTotal(t.subtotal, t.discount)
    ensures t.total >= 0 && (t.total == t.subtotal - t.discount || t.subtotal < t.discount)
    ensures t.subtotal < t.discount ==> t.total == 0
    ensures NonNegativeCart(items) ==> 0 <= t.discount <= t.subtotal && t.total == t.subtotal - t.discount
  {
    var sub := Subtotal(items);
    var pct := UserDiscountPercent(u);
    var userDiscount := DiscountAmount(sub, pct);
    var productDiscount := ProductDiscount(items);
    StackedDiscountBound(sub, pct, userDiscount, productDiscount);
    var disc := userDiscount + productDiscount;
    Totals(sub, disc, FinalTotal(sub, disc))
  }

  /** At most 20 percent plus at most 10 percent never exceeds the whole. */
  lemma StackedDiscountBound(sub: int, pct: int, userDiscount: int, productDiscount: int)
    ensures 0 <= sub && 0 <= pct <= 20 && 0 <= userDiscount && userDiscount * 100 <= sub * pct
            && 0 <= productDiscount && productDiscount * 10 <= sub
            ==> userDiscount + productDiscount <= sub
  {
    if 0 <= sub && 0 <= pct <= 20 {
      assert sub * pct <= sub * 20;
    }
  }

  /** With no list product in the cart, both cart implementations show the same figures. */
  lemma AgreesWithMainCartWithoutPromo(items: seq<CartItem>, u: Option<User>)
    requires forall i :: 0 <= i < |items| ==> !IsPromoProduct(items[i].nombre)
    ensures PromoPrice(items, u) == Price(items, u)
  {
    NoPromoNoProductDiscount(items);
  }

  /** The worked example: one Catan at 35269 with no user gives 3526 off and 31743 to pay. */
  lemma CatanExample()
    ensures PromoPrice([CartItem(1, 1, "Catan", 35269, 1)], None) == Totals(35269, 3526, 31743)
  {
    var items := [CartItem(1, 1, "Catan", 35269, 1)];
    assert Lowercase("Catan") == "catan";
    assert ProductDiscount(items) == 3526 by {
      assert ProductDiscount(items[1..]) == 0;
    }
  }

  /**
   * The user discount is taken from the raw subtotal, not from what is left
   * after the product discount: a Duoc student buying one Catan at 1000 pays
   * 700, where applying the discounts in turn would give 720.
   */
  lemma DiscountsStackOnRawSubtotal(u: User)
    requires u.esDuoc
    ensures var items := [CartItem(1, 1, "Catan", 1000, 1)];
            var t := PromoPrice(items, Some(u));
            t == Totals(1000, 300, 700)
            && t.total != (1000 - ProductDiscount(items)) - DiscountAmount(1000 - ProductDiscount(items), DUOC_PERCENT)
  {
    var items := [CartItem(1, 1, "Catan", 1000, 1)];
    assert Lowercase("Catan") == "catan";
    assert ProductDiscount(items) == 100 by {
      assert ProductDiscount(items[1..]) == 0;
    }
  }

  /**
   * `processOrder` of this variant: the same guards, with the request
   * carrying exactly the figures the cart screen shows, and the points
   * accrued on the clamped final total.
   */
  function ProcessPromoOrder(items: seq<CartItem>, s: CartState, now: int, reply: Reply<()>,
                             writeFailure: Option<string>): (c: Checkout)
    ensures c.request.Some? <==> |items| > 0 && s.currentUser.Some?
    ensures c.request.Some? ==>
              var t := PromoPrice(items, s.currentUser);
              c.request.value.montoTotal == t.subtotal && c.request.value.montoDescuento == t.discount
              && c.request.value.montoFinal == t.total && c.request.value.montoFinal >= 0
    ensures c.savedUser.Some? <==> c.request.Some? && reply.Confirmed? && writeFailure.None?
    ensures c.request.Some? && reply.Confirmed? && writeFailure.Some? ==>
              c.cart == items && c.state.error == Some(ORDER_ERROR_PREFIX + writeFailure.value)
              && c.state.orderSuccess == s.orderSuccess
    ensures c.savedUser.Some? ==> c.state == s.(isProcessingOrder := false, orderSuccess := true, error := None)
    ensures c.request.Some? && reply.NotConfirmed? ==>
              c.state == s.(isProcessingOrder := false, error := Some(ORDER_NOT_CONFIRMED_ERROR))
    ensures c.request.Some? && reply.Failed? ==>
              c.state == s.(isProcessingOrder := false, error := Some(ORDER_ERROR_PREFIX + reply.message))
    ensures c.savedUser.Some? ==>
              c.savedUser == Some(Accrue(s.currentUser.value, PromoPrice(items, s.currentUser).total))
              && c.cart == []
    ensures c.savedUser.Some? ==>
              s.currentUser.Some? && reply.Confirmed?
              && c.savedUser.value.puntosLevelUp >= s.currentUser.value.puntosLevelUp
              && c.savedUser.value.nivel == Level(c.savedUser.value.puntosLevelUp)
  {
    PlaceOrder(items, s, PromoPrice(items, s.currentUser), now, reply, writeFailure)
  }

  /**
   * A confirmed order of this variant earns one point per full thousand of
   * the clamped final total, empties the cart and leaves the level matching
   * the new balance.
   */
  lemma ProcessPromoOrderAccrual(items: seq<CartItem>, s: CartState, now: int)
    requires |items| > 0 && s.currentUser.Some?
    ensures var c := ProcessPromoOrder(items, s, now, Confirmed(()), None);
            var u, v := s.currentUser.value, c.savedUser.value;
            c.savedUser.Some? && c.cart == []
            && v.puntosLevelUp == u.puntosLevelUp + PromoPrice(items, s.currentUser).total / UNITS_PER_POINT
            && v.totalCompras == u.totalCompras + 1 && v.nivel == Level(v.puntosLevelUp)
  {
  }
}

=== FILE: review.dfy ===
/**
 * The product-review screen: loading a product's reviews with their count
 * and mean rating, and submitting a new review behind four checks taken in
 * a fixed order.
 */
module Review {
  import opened Wrappers
  import opened Text
  import opened Entities
  import opened Validation

  const LOGIN_ERROR: string := "Debes iniciar sesión para dejar una reseña"
  const PRODUCT_ERROR: string := "Producto no encontrado"
  const RATING_ERROR: string := "Calificación debe estar entre 0 y 5"
  const COMMENT_ERROR: string := "Comentario debe tener al menos 10 caracteres"
  const NOT_CONFIRMED_ERROR: string := "Error al enviar reseña: No se pudo confirmar la reseña con el servidor."
  const SUBMIT_ERROR_PREFIX: string := "Error al enviar reseña: "
  const LOAD_ERROR_PREFIX: string := "Error al cargar reseñas: "

  /** `ReseniaEntidad` as built and sent: product, author, comment and rating. */
  datatype ProductReview = ProductReview(
    productoId: int,
    usuarioId: int,
    nombreUsuario: string,
    comentario: string,
    valoracion: real)

  /** `ReviewState`; the ratings and their mean are exact reals rather than floats. */
  datatype ReviewState = ReviewState(
    isLoading: bool,
    error: Option<string>,
    isSubmitting: bool,
    submitSuccess: bool,
    currentUser: Option<User>,
    product: Option<Product>,
    reviews: seq<ProductReview>,
    averageRating: real,
    reviewCount: int)

  // ---------------------------------------------------------------------
  // Loading
  // ---------------------------------------------------------------------

  /** The ratings of `reviews` added up. */
  function RatingSum(reviews: seq<ProductReview>): real {
    if |reviews| == 0 then 0.0 else reviews[0].valoracion + RatingSum(reviews[1..])
  }

  /** The mean rating, or 0 when there are no reviews. */
  function AverageRating(reviews: seq<ProductReview>): (avg: real)
    ensures |reviews| == 0 ==> avg == 0.0
    ensures |reviews| > 0 ==> avg * |reviews| as real == RatingSum(reviews)
  {
    if |reviews| == 0 then 0.0 else RatingSum(reviews) / |reviews| as real
  }

  /** Ratings that all lie in `lo..hi` add up to between `n * lo` and `n * hi`. */
  lemma {:induction false} RatingSumBounds(reviews: seq<ProductReview>, lo: real, hi: real)
    requires forall i :: 0 <= i < |reviews| ==> lo <= reviews[i].valoracion <= hi
    ensures |reviews| as real * lo <= RatingSum(reviews) <= |reviews| as real * hi
  {
    if |reviews| > 0 {
      assert forall i :: 0 <= i < |reviews| - 1 ==> reviews[1..][i] == reviews[i + 1];
      RatingSumBounds(reviews[1..], lo, hi);
    }
  }

  /** The mean of ratings that all lie in `lo..hi` lies there too. */
  lemma AverageWithinBounds(reviews: seq<ProductReview>, lo: real, hi: real)
    requires |reviews| > 0
    requires forall i :: 0 <= i < |reviews| ==> lo <= reviews[i].valoracion <= hi
    ensures lo <= AverageRating(reviews) <= hi
  {
    RatingSumBounds(reviews, lo, hi);
    var n := |reviews| as real;
    var avg := AverageRating(reviews);
    assert avg * n == RatingSum(reviews);
  }

  /** Reviews that all carry a valid rating have a mean that is a valid rating. */
  lemma AverageIsValidRating(reviews: seq<ProductReview>)
    requires forall i :: 0 <= i < |reviews| ==> IsValidRating(reviews[i].valoracion)
    ensures IsValidRating(AverageRating(reviews))
  {
    if |reviews| > 0 {
      AverageWithinBounds(reviews, 0.0, 5.0);
    }
  }

  /**
   * `loadProductReviews`, with the product looked up locally and the reviews
   * fetched from the server passed in (a failed fetch arrives as an empty
   * list); `failure` is the message of a failing local lookup, which leaves
   * the loaded data as it was.
   */
  function LoadProductReviews(s: ReviewState, product: Option<Product>, fetched: seq<ProductReview>,
                              failure: Option<string>): (r: ReviewState)
    ensures !r.isLoading
    ensures failure.Some? ==> r == s.(isLoading := false, error := Some(LOAD_ERROR_PREFIX + failure.value))
    ensures failure.None? ==>
              r.product == product && r.reviews == fetched && r.error.None?
              && r.reviewCount == |fetched|
              && (|fetched| == 0 ==> r.averageRating == 0.0)
              && (|fetched| > 0 ==> r.averageRating * |fetched| as real == RatingSum(fetched))
              && r.(product := s.product, reviews := s.reviews, averageRating := s.averageRating,
                    reviewCount := s.reviewCount, isLoading := s.isLoading, error := s.error) == s
  {
    match failure
    case Some(message) => s.(isLoading := false, error := Some(LOAD_ERROR_PREFIX + message))
    case None =>
      s.(product := product, reviews := fetched, averageRating := AverageRating(fetched),
         reviewCount := |fetched|, isLoading := false, error := None)
  }

  /** After a successful load the count and mean describe exactly the reviews on screen. */
  lemma LoadedFiguresDescribeReviews(s: ReviewState, product: Option<Product>, fetched: seq<ProductReview>)
    requires forall i :: 0 <= i < |fetched| ==> IsValidRating(fetched[i].valoracion)
    ensures var r := LoadProductReviews(s, product, fetched, None);
            r.reviewCount == |r.reviews| && r.averageRating == AverageRating(r.reviews)
            && IsValidRating(r.averageRating)
  {
    AverageIsValidRating(fetched);
  }

  // ---------------------------------------------------------------------
  // Submitting
  // ---------------------------------------------------------------------

  /**
   * The result of `submitReview`: the state shown while the server call is
   * pending (absent when a check stops the submission), the state after
   * it, and the review sent, if any.
   */
  datatype SubmitOutcome = SubmitOutcome(pending: Option<ReviewState>, state: ReviewState, sent: Option<ProductReview>)

  /** The four checks, in the order `submitReview` takes them; the first failure's message, if any. */
  function FirstCheckFailure(s: ReviewState, rating: real, comment: string): (m: Option<string>)
    ensures m.None? <==> s.currentUser.Some? && s.product.Some? && IsValidRating(rating) && IsValidReviewComment(comment)
  {
    if s.currentUser.None? then Some(LOGIN_ERROR)
    else if s.product.None? then Some(PRODUCT_ERROR)
    else if !IsValidRating(rating) then Some(RATING_ERROR)
    else if !IsValidReviewComment(comment) then Some(COMMENT_ERROR)
    else None
  }

  /**
   * `submitReview`, with the server's reply passed in. A failed check sets
   * its message and changes nothing else; otherwise the screen enters the
   * submitting state, the review with the trimmed comment is sent, and the
   * reply decides between success and an error.
   */
  function SubmitReview(s: ReviewState, rating: real, comment: string, reply: Reply<()>): (r: SubmitOutcome)
    ensures r.pending.Some? <==> r.sent.Some?
    ensures r.sent.None? ==> r.state.(error := s.error) == s && r.state.error.Some?
    ensures r.pending.Some? ==> r.pending.value == s.(isSubmitting := true)
    ensures r.sent.Some? ==>
              var v := r.sent.value;
              s.currentUser.Some? && s.product.Some?
              && v.productoId == s.product.value.id && v.usuarioId == s.currentUser.value.id
              && v.nombreUsuario == s.currentUser.value.nombre
              && v.comentario == Trim(comment) && v.valoracion == rating
    ensures r.sent.Some? ==>
              !r.state.isSubmitting
              && (r.state.error.None? <==> reply.Confirmed?)
              && r.state.submitSuccess == (reply.Confirmed? || s.submitSuccess)
              && r.state.(error := s.error, isSubmitting := s.isSubmitting, submitSuccess := s.submitSuccess) == s
    ensures r.sent.Some? && reply.NotConfirmed? ==> r.state.error == Some(NOT_CONFIRMED_ERROR)
    ensures r.sent.Some? && reply.Failed? ==> r.state.error == Some(SUBMIT_ERROR_PREFIX + reply.message)
  {
    match FirstCheckFailure(s, rating, comment)
    case Some(message) => SubmitOutcome(None, s.(error := Some(message)), None)
    case None =>
      var submitting := s.(isSubmitting := true);
      var review := ProductReview(s.product.value.id, s.currentUser.value.id, s.currentUser.value.nombre,
                                  Trim(comment), rating);
      var after :=
        match reply
        case Confirmed(_) => submitting.(isSubmitting := false, submitSuccess := true, error := None)
        case NotConfirmed => submitting.(isSubmitting := false, error := Some(NOT_CONFIRMED_ERROR))
        case Failed(message) => submitting.(isSubmitting := false, error := Some(SUBMIT_ERROR_PREFIX + message));
      SubmitOutcome(Some(submitting), after, Some(review))
  }

  /** The submitting state is entered exactly when all four checks pass. */
  lemma SubmittingOnlyWhenChecksPass(s: ReviewState, rating: real, comment: string, reply: Reply<()>)
    ensures SubmitReview(s, rating, comment, reply).pending.Some? <==>
            s.currentUser.Some? && s.product.Some? && IsValidRating(rating) && IsValidReviewComment(comment)
  {
  }

  /**
   * The checks stop at the first failure: a missing user wins over
   * everything, a missing product over the rating and comment, a bad
   * rating over the comment; the reply plays no part.
   */
  lemma FirstFailureWins(s: ReviewState, rating: real, comment: string, reply: Reply<()>)
    ensures var e := SubmitReview(s, rating, comment, reply).state.error;
            (s.currentUser.None? ==> e == Some(LOGIN_ERROR))
            && (s.currentUser.Some? && s.product.None? ==> e == Some(PRODUCT_ERROR))
            && (s.currentUser.Some? && s.product.Some? && !IsValidRating(rating) ==> e == Some(RATING_ERROR))
            && (s.currentUser.Some? && s.product.Some? && IsValidRating(rating) && !IsValidReviewComment(comment)
                ==> e == Some(COMMENT_ERROR))
  {
  }

  /** The review sent passes the same checks again: its rating is valid and its comment is valid and already trimmed. */
  lemma SentReviewIsValid(s: ReviewState, rating: real, comment: string, reply: Reply<()>)
    requires SubmitReview(s, rating, comment, reply).sent.Some?
    ensures var v := SubmitReview(s, rating, comment, reply).sent.value;
            IsValidRating(v.valoracion) && IsValidReviewComment(v.comentario) && Trim(v.comentario) == v.comentario
  {
    TrimIdempotent(comment);
  }

  /** `clearError`: the error goes away and nothing else changes. */
  function ClearError(s: ReviewState): (r: ReviewState)
    ensures r.error.None?
    ensures r.(error := s.error) == s
  {
    s.(error := None)
  }

  /** `clearSubmitSuccess`: the success flag drops and nothing else changes. */
  function ClearSubmitSuccess(s: ReviewState): (r: ReviewState)
    ensures !r.submitSuccess
    ensures r.(submitSuccess := s.submitSuccess) == s
  {
    s.(submitSuccess := false)
  }

  /** A rejected submission leaves, once its error is cleared, the state as it was with no error. */
  lemma RejectedThenClearedRestores(s: ReviewState, rating: real, comment: string, reply: Reply<()>)
    requires SubmitReview(s, rating, comment, reply).sent.None?
    ensures ClearError(SubmitReview(s, rating, comment, reply).state) == ClearError(s)
  {
  }
}

=== FILE: seqs.dfy ===
/** Order-preserving selection over sequences, as Kotlin's `filter` does it. */
module Seqs {

  /** `a` can be obtained from `b` by deleting elements, keeping the order of the rest. */
  predicate IsSubsequence<T(==)>(a: seq<T>, b: seq<T>)
    decreases |b|
  {
    |a| == 0 || (|b| > 0 && (if a[0] == b[0] then IsSubsequence(a[1..], b[1..]) else IsSubsequence(a, b[1..])))
  }

  /** How many times `x` occurs in `s`. */
  function Count<T(==)>(s: seq<T>, x: T): nat {
    if |s| == 0 then 0 else (if s[0] == x then 1 else 0) + Count(s[1..], x)
  }

  /** `Count` is the multiplicity of `x` in the multiset of `s`. */
  lemma {:induction false} CountIsMultiplicity<T>(s: seq<T>, x: T)
    ensures Count(s, x) == multiset(s)[x]
  {
    if |s| > 0 {
      CountIsMultiplicity(s[1..], x);
      assert s == [s[0]] + s[1..];
      assert multiset(s) == multiset{s[0]} + multiset(s[1..]);
    }
  }

  /** `s.filter(p)`: the elements satisfying `p`, in their original order, each as often as in `s`. */
  function Filter<T(==,!new)>(p: T -> bool, s: seq<T>): (r: seq<T>)
    ensures |r| <= |s|
    ensures forall i :: 0 <= i < |r| ==> r[i] in s && p(r[i])
    ensures forall i :: 0 <= i < |s| && p(s[i]) ==> s[i] in r
    ensures IsSubsequence(r, s)
    ensures forall x :: Count(r, x) == if p(x) then Count(s, x) else 0
  {
    if |s| == 0 then []
    else
      var rest := Filter(p, s[1..]);
      if p(s[0]) then
        assert ([s[0]] + rest)[1..] == rest;
        [s[0]] + rest
      else rest
  }

  /** Nothing is dropped when every element qualifies. */
  lemma {:induction false} FilterKeepsAll<T(!new)>(p: T -> bool, s: seq<T>)
    requires forall i :: 0 <= i < |s| ==> p(s[i])
    ensures Filter(p, s) == s
  {
    if |s| > 0 {
      FilterKeepsAll(p, s[1..]);
      assert s == [s[0]] + s[1..];
    }
  }

  /** Every element occurs at most once. */
  predicate NoDuplicates<T(==)>(s: seq<T>) {
    forall i, j :: 0 <= i < j < |s| ==> s[i] != s[j]
  }
}

=== FILE: text.dfy ===
/**
 * The slice of Kotlin's `Char` and `String` library the storefront relies on:
 * whitespace and blank tests, `trim`, `lowercase`/`uppercase`, `endsWith`,
 * `replace` of one character, `take`, and `contains(…, ignoreCase = true)`.
 *
 * Case mapping is modelled for the ASCII and Latin-1 ranges, where Kotlin's
 * mapping is one character to one character; everything outside maps to itself.
 */
module Text {

  /** Kotlin's `Char.isWhitespace()`: Java's `isWhitespace` or `isSpaceChar`. */
  predicate IsWhitespace(c: char) {
    ('\t' <= c <= '\r') || ('\U{1C}' <= c <= ' ') || c == '\U{A0}' || c == '\U{1680}'
    || ('\U{2000}' <= c <= '\U{200A}') || c == '\U{2028}' || c == '\U{2029}'
    || c == '\U{202F}' || c == '\U{205F}' || c == '\U{3000}'
  }

  /** Kotlin's `isBlank()`: empty, or whitespace only. */
  predicate IsBlank(s: string) {
    forall i :: 0 <= i < |s| ==> IsWhitespace(s[i])
  }

  /** How many UTF-16 code units `c` takes: two for a character outside the Basic Multilingual Plane. */
  function Utf16Units(c: char): (n: nat)
    ensures n == 1 || n == 2
  {
    if c as int >= 0x1_0000 then 2 else 1
  }

  /** Kotlin's `String.length`: the UTF-16 code units of `s`, not its characters. */
  function Utf16Length(s: string): (n: nat)
    ensures |s| <= n <= 2 * |s|
  {
    if |s| == 0 then 0 else Utf16Units(s[0]) + Utf16Length(s[1..])
  }

  /** The length of a concatenation is the sum of the lengths. */
  lemma {:induction false} Utf16LengthAppend(a: string, b: string)
    ensures Utf16Length(a + b) == Utf16Length(a) + Utf16Length(b)
  {
    if |a| > 0 {
      assert (a + b)[1..] == a[1..] + b;
      Utf16LengthAppend(a[1..], b);
    } else {
      assert a + b == b;
    }
  }

  /** A stretch inside a slice is never longer, in UTF-16 units, than the slice. */
  lemma Utf16LengthSpan(s: string, lo: int, a: int, b: int, hi: int)
    requires 0 <= lo <= a <= b <= hi <= |s|
    ensures Utf16Length(s[a..b]) <= Utf16Length(s[lo..hi])
  {
    var left, mid, right := s[lo..a], s[a..b], s[b..hi];
    assert s[lo..hi] == left + (mid + right);
    Utf16LengthAppend(mid, right);
    Utf16LengthAppend(left, mid + right);
  }

  /** Text of characters inside the Basic Multilingual Plane is as long in code units as in characters. */
  lemma {:induction false} Utf16LengthBmp(s: string)
    requires forall i :: 0 <= i < |s| ==> Utf16Units(s[i]) == 1
    ensures Utf16Length(s) == |s|
  {
    if |s| > 0 {
      Utf16LengthBmp(s[1..]);
    }
  }

  /** `Char.lowercaseChar()` on ASCII and Latin-1 letters. */
  function LowerChar(c: char): (r: char)
    ensures 'A' <= c <= 'Z' ==> 'a' <= r <= 'z'
    ensures !('A' <= c <= 'Z') && !('\U{C0}' <= c <= '\U{DE}') ==> r == c
  {
    if 'A' <= c <= 'Z' || ('\U{C0}' <= c <= '\U{DE}' && c != '\U{D7}') then (c as int + 32) as char else c
  }

  /** `Char.uppercaseChar()` on ASCII and Latin-1 letters (`µ` and `ÿ` leave Latin-1). */
  function UpperChar(c: char): (r: char)
    ensures 'a' <= c <= 'z' ==> 'A' <= r <= 'Z'
  {
    if 'a' <= c <= 'z' || ('\U{E0}' <= c <= '\U{FE}' && c != '\U{F7}') then (c as int - 32) as char
    else if c == '\U{B5}' then '\U{39C}'
    else if c == '\U{FF}' then '\U{178}'
    else c
  }

  /** Lower-casing twice is lower-casing once. */
  lemma LowerCharIdempotent(c: char)
    ensures LowerChar(LowerChar(c)) == LowerChar(c)
  {
  }

  /** `String.lowercase()`. */
  function Lowercase(s: string): (r: string)
    ensures |r| == |s|
    ensures forall i :: 0 <= i < |s| ==> r[i] == LowerChar(s[i])
  {
    seq(|s|, i requires 0 <= i < |s| => LowerChar(s[i]))
  }

  /** Lower-casing a string twice is lower-casing it once. */
  lemma LowercaseIdempotent(s: string)
    ensures Lowercase(Lowercase(s)) == Lowercase(s)
  {
    forall i | 0 <= i < |s| ensures Lowercase(Lowercase(s))[i] == Lowercase(s)[i] {
      LowerCharIdempotent(s[i]);
    }
  }

  /** `String.uppercase()` (except that `ß` stays one character). */
  function Uppercase(s: string): (r: string)
    ensures |r| == |s|
    ensures forall i :: 0 <= i < |s| ==> r[i] == UpperChar(s[i])
  {
    seq(|s|, i requires 0 <= i < |s| => UpperChar(s[i]))
  }

  /** `String.endsWith(suffix)`. */
  predicate EndsWith(s: string, suffix: string) {
    |suffix| <= |s| && s[|s| - |suffix|..] == suffix
  }

  /** `take(n)`: the first `n` characters, or all of them when there are fewer. */
  function Take(s: string, n: nat): (r: string)
    ensures |r| == if n <= |s| then n else |s|
    ensures r <= s
  {
    if n <= |s| then s[..n] else s
  }

  /** `replace(c.toString(), "")`: every occurrence of `c` removed, the rest in order. */
  function RemoveAll(s: string, c: char): (r: string)
    ensures multiset(r) == multiset(s)[c := 0]
    ensures |r| <= |s|
  {
    if |s| == 0 then []
    else
      assert s == [s[0]] + s[1..];
      if s[0] == c then RemoveAll(s[1..], c) else [s[0]] + RemoveAll(s[1..], c)
  }

  /** Removing a character that does not occur changes nothing. */
  lemma RemoveAllAbsent(s: string, c: char)
    requires c !in s
    ensures RemoveAll(s, c) == s
  {
    if |s| > 0 {
      RemoveAllAbsent(s[1..], c);
    }
  }

  /** Positions `lo` to `hi` (exclusive) of `s` hold whitespace only. */
  predicate BlankBetween(s: string, lo: int, hi: int)
    requires 0 <= lo <= hi <= |s|
  {
    forall k :: lo <= k < hi ==> IsWhitespace(s[k])
  }

  /** How many whitespace characters open `s`: the ones `trim()` drops at the front. */
  function LeadingBlanks(s: string): (n: nat)
    ensures n <= |s| && BlankBetween(s, 0, n)
    ensures n < |s| ==> !IsWhitespace(s[n])
  {
    if |s| > 0 && IsWhitespace(s[0]) then
      var m := LeadingBlanks(s[1..]);
      assert forall k :: 1 <= k < 1 + m ==> s[k] == s[1..][k - 1];
      1 + m
    else 0
  }

  /** How many whitespace characters close `s`: the ones `trim()` drops at the back. */
  function TrailingBlanks(s: string): (n: nat)
    ensures n <= |s| && BlankBetween(s, |s| - n, |s|)
    ensures n < |s| ==> !IsWhitespace(s[|s| - n - 1])
  {
    if |s| > 0 && IsWhitespace(s[|s| - 1]) then
      var m := TrailingBlanks(s[..|s| - 1]);
      assert forall k :: |s| - 1 - m <= k < |s| - 1 ==> s[k] == s[..|s| - 1][k];
      1 + m
    else 0
  }

  /**
   * `trim()`: the contiguous middle of `s`, starting `LeadingBlanks(s)` in,
   * that starts and ends with a non-whitespace character and has only
   * whitespace around it.
   */
  function Trim(s: string): (r: string)
    ensures LeadingBlanks(s) + |r| <= |s|
    ensures r == s[LeadingBlanks(s)..LeadingBlanks(s) + |r|]
    ensures BlankBetween(s, 0, LeadingBlanks(s)) && BlankBetween(s, LeadingBlanks(s) + |r|, |s|)
    ensures |r| > 0 ==> !IsWhitespace(r[0]) && !IsWhitespace(r[|r| - 1])
    ensures |r| == 0 <==> IsBlank(s)
  {
    var lo := LeadingBlanks(s);
    if lo == |s| then
      ""
    else
      var n := TrailingBlanks(s);
      s[lo..|s| - n]
  }

  /** A string that neither starts nor ends with whitespace is its own trim. */
  lemma TrimOfTrimmed(s: string)
    requires |s| == 0 || (!IsWhitespace(s[0]) && !IsWhitespace(s[|s| - 1]))
    ensures Trim(s) == s
  {
    if |s| > 0 {
      assert LeadingBlanks(s) == 0 && TrailingBlanks(s) == 0;
      assert s[0..|s|] == s;
    }
  }

  /** Trimming twice is trimming once. */
  lemma TrimIdempotent(s: string)
    ensures Trim(Trim(s)) == Trim(s)
  {
    TrimOfTrimmed(Trim(s));
  }

  /**
   * The trimmed string is at least `n` UTF-16 units long exactly when the
   * stretch between two non-whitespace characters of `s` is.
   */
  lemma TrimLengthAtLeast(s: string, n: nat)
    requires n >= 1
    ensures Utf16Length(Trim(s)) >= n <==>
            exists i, j :: 0 <= i <= j < |s| && !IsWhitespace(s[i]) && !IsWhitespace(s[j])
                           && Utf16Length(s[i..j + 1]) >= n
  {
    var r := Trim(s);
    var lo := LeadingBlanks(s);
    if Utf16Length(r) >= n {
      TrimmedEnds(s);
      assert s[lo..lo + |r| - 1 + 1] == r;
    }
    forall i, j | 0 <= i <= j < |s| && !IsWhitespace(s[i]) && !IsWhitespace(s[j])
      ensures Utf16Length(s[i..j + 1]) <= Utf16Length(r)
    {
      TrimmedSpan(s, i, j);
    }
  }

  /** A non-empty trimmed string is the stretch from the first to the last non-whitespace character. */
  lemma TrimmedEnds(s: string)
    requires |Trim(s)| > 0
    ensures var lo, r := LeadingBlanks(s), Trim(s);
            lo + |r| <= |s| && s[lo] == r[0] && s[lo + |r| - 1] == r[|r| - 1]
  {
    SliceEnds(s, LeadingBlanks(s), Trim(s));
  }

  /** The ends of a slice are the characters at its bounds. */
  lemma SliceEnds(s: string, lo: nat, r: string)
    requires lo + |r| <= |s| && r == s[lo..lo + |r|] && |r| > 0
    ensures s[lo] == r[0] && s[lo + |r| - 1] == r[|r| - 1]
  {
  }

  /** The stretch between two non-whitespace characters lies inside the trimmed string. */
  lemma TrimmedSpan(s: string, i: int, j: int)
    requires 0 <= i <= j < |s| && !IsWhitespace(s[i]) && !IsWhitespace(s[j])
    ensures Utf16Length(s[i..j + 1]) <= Utf16Length(Trim(s))
  {
    TrimmedSpanBounds(s, i, j);
    SpanOfCopy(s, LeadingBlanks(s), i, j + 1, LeadingBlanks(s) + |Trim(s)|, Trim(s));
  }

  /** A stretch inside `s[lo..hi]` is no longer, in UTF-16 units, than a copy `r` of that slice. */
  lemma SpanOfCopy(s: string, lo: int, a: int, b: int, hi: int, r: string)
    requires 0 <= lo <= a <= b <= hi <= |s| && r == s[lo..hi]
    ensures Utf16Length(s[a..b]) <= Utf16Length(r)
  {
    Utf16LengthSpan(s, lo, a, b, hi);
  }

  /** Non-whitespace characters lie between the blanks `trim()` drops. */
  lemma TrimmedSpanBounds(s: string, i: int, j: int)
    requires 0 <= i <= j < |s| && !IsWhitespace(s[i]) && !IsWhitespace(s[j])
    ensures LeadingBlanks(s) <= i && j < LeadingBlanks(s) + |Trim(s)|
  {
    var lo, r := LeadingBlanks(s), Trim(s);
    assert BlankBetween(s, 0, lo) && BlankBetween(s, lo + |r|, |s|);
  }

  /** Kotlin's character comparison under `ignoreCase = true`. */
  predicate CharEqualsIgnoreCase(a: char, b: char) {
    a == b || UpperChar(a) == UpperChar(b) || LowerChar(UpperChar(a)) == LowerChar(UpperChar(b))
  }

  /** `s.regionMatches(at, q, 0, q.length, ignoreCase = true)`. */
  predicate RegionMatchesIgnoreCase(s: string, at: int, q: string)
    requires 0 <= at <= |s| - |q|
  {
    forall k :: 0 <= k < |q| ==> CharEqualsIgnoreCase(s[at + k], q[k])
  }

  /** `q` occurs in `s` at some position, ignoring case. */
  predicate OccursIgnoreCase(s: string, q: string) {
    exists at :: 0 <= at <= |s| - |q| && RegionMatchesIgnoreCase(s, at, q)
  }

  /**
   * `s.indexOf(q, from, ignoreCase = true)`: the first position at or after
   * `from` where `q` matches, or -1.
   */
  function IndexOfIgnoreCase(s: string, q: string, from: nat): (r: int)
    decreases |s| - from
    ensures r == -1 || (from <= r <= |s| - |q| && RegionMatchesIgnoreCase(s, r, q))
    ensures r == -1 <==> forall at :: from <= at <= |s| - |q| ==> !RegionMatchesIgnoreCase(s, at, q)
    ensures r != -1 ==> forall at :: from <= at < r ==> !RegionMatchesIgnoreCase(s, at, q)
  {
    if from > |s| - |q| then -1
    else if RegionMatchesIgnoreCase(s, from, q) then from
    else IndexOfIgnoreCase(s, q, from + 1)
  }

  /** `s.contains(q, ignoreCase = true)`, which Kotlin defines as `indexOf(q, ignoreCase) >= 0`. */
  function ContainsIgnoreCase(s: string, q: string): (b: bool)
    ensures b <==> OccursIgnoreCase(s, q)
  {
    IndexOfIgnoreCase(s, q, 0) >= 0
  }

  /** `parts.joinToString(c.toString())`: the parts with `c` between neighbours; empty for no parts. */
  function Join(parts: seq<string>, c: char): (r: string)
  {
    if |parts| == 0 then ""
    else if |parts| == 1 then parts[0]
    else parts[0] + [c] + Join(parts[1..], c)
  }

  /** `s.split(c)`: the pieces between occurrences of `c`, always at least one. */
  function Split(s: string, c: char): (r: seq<string>)
    ensures |r| >= 1
  {
    if |s| == 0 then [""]
    else
      var rest := Split(s[1..], c);
      if s[0] == c then [""] + rest else [[s[0]] + rest[0]] + rest[1..]
  }

  /** A piece without `c` splits to itself. */
  lemma {:induction false} SplitWithout(a: string, c: char)
    requires c !in a
    ensures Split(a, c) == [a]
  {
    if |a| > 0 {
      SplitWithout(a[1..], c);
      assert a == [a[0]] + a[1..];
    }
  }

  /** Splitting stops at the first `c`. */
  lemma {:induction false} SplitAtFirst(a: string, c: char, rest: string)
    requires c !in a
    ensures Split(a + [c] + rest, c) == [a] + Split(rest, c)
  {
    var s := a + [c] + rest;
    if |a| == 0 {
      assert s[1..] == rest;
    } else {
      assert s[1..] == a[1..] + [c] + rest;
      SplitAtFirst(a[1..], c, rest);
      assert a == [a[0]] + a[1..];
    }
  }

  /** Splitting undoes joining when no part contains the separator. */
  lemma {:induction false} SplitJoin(parts: seq<string>, c: char)
    requires |parts| >= 1
    requires forall i :: 0 <= i < |parts| ==> c !in parts[i]
    ensures Split(Join(parts, c), c) == parts
  {
    if |parts| == 1 {
      SplitWithout(parts[0], c);
    } else {
      SplitJoin(parts[1..], c);
      SplitAtFirst(parts[0], c, Join(parts[1..], c));
      assert parts == [parts[0]] + parts[1..];
    }
  }
}

=== FILE: validation.dfy ===
/**
 * The `Validacion` object: form validators, the referral-code generator and
 * the loyalty table (points to level, level to discount percent).
 */
module Validation {
  import opened Wrappers
  import opened Text
  import opened Numerals

  // ---------------------------------------------------------------------
  // Field validators
  // ---------------------------------------------------------------------

  /** `esAdulto`. */
  predicate IsAdult(edad: int) {
    edad >= 18
  }

  /** The address suffix of Duoc UC students. */
  const DUOC_SUFFIX: string := "@duocuc.cl"

  /** `esCorreoDuoc`: the lower-cased address ends with `@duocuc.cl`. */
  predicate IsDuocEmail(correo: string) {
    EndsWith(Lowercase(correo), DUOC_SUFFIX)
  }

  /** `esClaveValida`: six or more UTF-16 units. */
  predicate IsValidPassword(contrasena: string) {
    Utf16Length(contrasena) >= 6
  }

  /** `contrasenasCoinciden`. */
  predicate PasswordsMatch(contrasena: string, confirmarClave: string) {
    contrasena == confirmarClave
  }

  /** `esNombreValido`: at least two UTF-16 units once trimmed. */
  predicate IsValidName(nombre: string) {
    Utf16Length(Trim(nombre)) >= 2
  }

  /** `esPrecioValido`. */
  predicate IsValidPrice(precio: int) {
    precio > 0
  }

  /** `esStockValido`. */
  predicate IsValidStock(stock: int) {
    stock >= 0
  }

  /** `esCalificacionValida`: the rating lies in the closed range 0..5. */
  predicate IsValidRating(calificacion: real) {
    0.0 <= calificacion <= 5.0
  }

  /** `esCantidadValida`. */
  predicate IsValidQuantity(cantidad: int) {
    cantidad > 0
  }

  /** `esCodigoReferidoValido`: six or more UTF-16 units. */
  predicate IsValidReferralCode(codigo: string) {
    Utf16Length(codigo) >= 6
  }

  /** `esComentarioResenaValido`: at least ten UTF-16 units once trimmed. */
  predicate IsValidReviewComment(comentario: string) {
    Utf16Length(Trim(comentario)) >= 10
  }

  /**
   * A name is valid exactly when it has two non-whitespace characters, or
   * one character outside the Basic Multilingual Plane, which Kotlin counts
   * as two.
   */
  lemma IsValidNameIff(nombre: string)
    ensures IsValidName(nombre) <==>
            (exists i, j :: 0 <= i < j < |nombre| && !IsWhitespace(nombre[i]) && !IsWhitespace(nombre[j]))
            || (exists i :: 0 <= i < |nombre| && Utf16Units(nombre[i]) == 2)
  {
    if IsValidName(nombre) {
      ValidNameWitness(nombre);
    }
    if exists i, j :: 0 <= i < j < |nombre| && !IsWhitespace(nombre[i]) && !IsWhitespace(nombre[j]) {
      var i, j :| 0 <= i < j < |nombre| && !IsWhitespace(nombre[i]) && !IsWhitespace(nombre[j]);
      TrimmedSpan(nombre, i, j);
    }
    if exists i :: 0 <= i < |nombre| && Utf16Units(nombre[i]) == 2 {
      var i :| 0 <= i < |nombre| && Utf16Units(nombre[i]) == 2;
      WideCharMakesValidName(nombre, i);
    }
  }

  /** A valid name holds two non-whitespace characters or one wide character. */
  lemma ValidNameWitness(nombre: string)
    requires IsValidName(nombre)
    ensures (exists i, j :: 0 <= i < j < |nombre| && !IsWhitespace(nombre[i]) && !IsWhitespace(nombre[j]))
            || (exists i :: 0 <= i < |nombre| && Utf16Units(nombre[i]) == 2)
  {
    var lo, r := LeadingBlanks(nombre), Trim(nombre);
    TrimmedEnds(nombre);
    if |r| == 1 {
      assert r == [r[0]] && r[0] == nombre[lo];
    } else {
      assert lo < lo + |r| - 1;
    }
  }

  /** One character outside the Basic Multilingual Plane is a valid name on its own. */
  lemma WideCharMakesValidName(nombre: string, i: int)
    requires 0 <= i < |nombre| && Utf16Units(nombre[i]) == 2
    ensures IsValidName(nombre)
  {
    assert !IsWhitespace(nombre[i]);
    TrimmedSpan(nombre, i, i);
    assert nombre[i..i + 1] == [nombre[i]];
  }

  /**
   * A comment is valid exactly when the stretch between two of its
   * non-whitespace characters is ten UTF-16 units or more. Two such
   * characters ten positions apart always suffice, and for text inside the
   * Basic Multilingual Plane they are also needed.
   */
  lemma IsValidReviewCommentIff(comentario: string)
    ensures IsValidReviewComment(comentario) <==>
            exists i, j :: 0 <= i <= j < |comentario| && !IsWhitespace(comentario[i])
                           && !IsWhitespace(comentario[j]) && Utf16Length(comentario[i..j + 1]) >= 10
    ensures (exists i, j :: 0 <= i <= j < |comentario| && !IsWhitespace(comentario[i])
                            && !IsWhitespace(comentario[j]) && j - i >= 9)
            ==> IsValidReviewComment(comentario)
    ensures (forall k :: 0 <= k < |comentario| ==> Utf16Units(comentario[k]) == 1) ==>
            (IsValidReviewComment(comentario) <==>
             exists i, j :: 0 <= i <= j < |comentario| && !IsWhitespace(comentario[i])
                            && !IsWhitespace(comentario[j]) && j - i >= 9)
  {
    if IsValidReviewComment(comentario) {
      ValidCommentWitness(comentario);
    }
    forall i, j | 0 <= i <= j < |comentario| && !IsWhitespace(comentario[i]) && !IsWhitespace(comentario[j])
      ensures Utf16Length(comentario[i..j + 1]) <= Utf16Length(Trim(comentario))
    {
      TrimmedSpan(comentario, i, j);
    }
  }

  /** A valid comment has a long enough stretch, ten positions long when every character is narrow. */
  lemma ValidCommentWitness(comentario: string)
    requires IsValidReviewComment(comentario)
    ensures exists i, j :: 0 <= i <= j < |comentario| && !IsWhitespace(comentario[i])
                           && !IsWhitespace(comentario[j]) && Utf16Length(comentario[i..j + 1]) >= 10
    ensures (forall k :: 0 <= k < |comentario| ==> Utf16Units(comentario[k]) == 1) ==>
            exists i, j :: 0 <= i <= j < |comentario| && !IsWhitespace(comentario[i])
                           && !IsWhitespace(comentario[j]) && j - i >= 9
  {
    var lo, r := LeadingBlanks(comentario), Trim(comentario);
    TrimmedEnds(comentario);
    assert comentario[lo..lo + |r| - 1 + 1] == r;
    if forall k :: 0 <= k < |comentario| ==> Utf16Units(comentario[k]) == 1 {
      assert forall k :: 0 <= k < |r| ==> r[k] == comentario[lo + k];
      Utf16LengthBmp(r);
    }
  }

  /** Upper-case letters in the address do not change whether it is a Duoc address. */
  lemma IsDuocEmailIgnoresCase(correo: string)
    ensures IsDuocEmail(correo) <==> IsDuocEmail(Lowercase(correo))
  {
    var l := Lowercase(correo);
    forall i | 0 <= i < |l| ensures Lowercase(l)[i] == l[i] {
      LowerCharIdempotent(correo[i]);
    }
    assert Lowercase(l) == l;
  }

  // ---------------------------------------------------------------------
  // E-mail shape
  // ---------------------------------------------------------------------

  /** `[A-Za-z0-9+_.-]`, the characters before the `@`. */
  predicate IsLocalChar(c: char) {
    'A' <= c <= 'Z' || 'a' <= c <= 'z' || '0' <= c <= '9' || c == '+' || c == '_' || c == '.' || c == '-'
  }

  /** `[A-Za-z0-9.-]`, the characters after the `@`. */
  predicate IsDomainChar(c: char) {
    'A' <= c <= 'Z' || 'a' <= c <= 'z' || '0' <= c <= '9' || c == '.' || c == '-'
  }

  predicate AllLocal(s: string, lo: int, hi: int)
    requires 0 <= lo <= hi <= |s|
  {
    forall i :: lo <= i < hi ==> IsLocalChar(s[i])
  }

  predicate AllDomain(s: string, lo: int, hi: int)
    requires 0 <= lo <= hi <= |s|
  {
    forall i :: lo <= i < hi ==> IsDomainChar(s[i])
  }

  /**
   * What the pattern `^[A-Za-z0-9+_.-]+@[A-Za-z0-9.-]+$` accepts: a
   * non-empty run of local characters, an `@` at position `k`, and a
   * non-empty run of domain characters to the end.
   */
  predicate EmailShape(s: string) {
    exists k :: 0 < k < |s| - 1 && s[k] == '@' && AllLocal(s, 0, k) && AllDomain(s, k + 1, |s|)
  }

  /** The states of a left-to-right matcher for the pattern. */
  datatype EmailScan = Start | InLocal | AtSign | InDomain | Reject

  function EmailStep(st: EmailScan, c: char): EmailScan {
    match st
    case Start => if IsLocalChar(c) then InLocal else Reject
    case InLocal => if IsLocalChar(c) then InLocal else if c == '@' then AtSign else Reject
    case AtSign => if IsDomainChar(c) then InDomain else Reject
    case InDomain => if IsDomainChar(c) then InDomain else Reject
    case Reject => Reject
  }

  /** The matcher's state after reading all of `s`. */
  function EmailScanOf(s: string): EmailScan {
    if |s| == 0 then Start else EmailStep(EmailScanOf(s[..|s| - 1]), s[|s| - 1])
  }

  /** `esCorreoValido`: the matcher ends inside the domain part. */
  predicate IsValidEmail(correo: string) {
    EmailScanOf(correo) == InDomain
  }

  /** What each matcher state says about the text read so far. */
  lemma EmailScanMeaning(s: string)
    ensures EmailScanOf(s) == Start <==> |s| == 0
    ensures EmailScanOf(s) == InLocal <==> |s| > 0 && AllLocal(s, 0, |s|)
    ensures EmailScanOf(s) == AtSign <==> |s| > 1 && s[|s| - 1] == '@' && AllLocal(s, 0, |s| - 1)
    ensures EmailScanOf(s) == InDomain <==> EmailShape(s)
  {
    LocalScanMeaning(s);
    AtSignScanMeaning(s);
    DomainScanMeaning(s);
  }

  /** The matcher is inside the local part exactly after a non-empty run of local characters. */
  lemma {:induction false} LocalScanMeaning(s: string)
    ensures EmailScanOf(s) == InLocal <==> |s| > 0 && AllLocal(s, 0, |s|)
  {
    if |s| > 0 {
      var p := s[..|s| - 1];
      LocalScanMeaning(p);
      assert forall i :: 0 <= i < |p| ==> p[i] == s[i];
      if AllLocal(s, 0, |s|) && |s| > 1 {
        assert AllLocal(p, 0, |p|);
      }
    }
  }

  /** The matcher has just read the `@` exactly after a non-empty run of local characters and an `@`. */
  lemma AtSignScanMeaning(s: string)
    ensures EmailScanOf(s) == AtSign <==> |s| > 1 && s[|s| - 1] == '@' && AllLocal(s, 0, |s| - 1)
  {
    if |s| > 0 {
      var p := s[..|s| - 1];
      LocalScanMeaning(p);
      assert forall i :: 0 <= i < |p| ==> p[i] == s[i];
    }
  }

  /** The matcher is inside the domain part exactly when the text read so far has the address shape. */
  lemma DomainScanMeaning(s: string)
    ensures EmailScanOf(s) == InDomain <==> EmailShape(s)
  {
    DomainScanSound(s);
    DomainScanComplete(s);
  }

  /** Ending inside the domain part means the text has the address shape. */
  lemma {:induction false} DomainScanSound(s: string)
    ensures EmailScanOf(s) == InDomain ==> EmailShape(s)
  {
    if |s| > 0 && EmailScanOf(s) == InDomain {
      var p, c := s[..|s| - 1], s[|s| - 1];
      DomainScanSound(p);
      AtSignScanMeaning(p);
      assert forall i :: 0 <= i < |p| ==> p[i] == s[i];
      if EmailScanOf(p) == AtSign {
        var k := |s| - 2;
        assert s[k] == '@' && AllLocal(s, 0, k) && AllDomain(s, k + 1, |s|);
      } else {
        var k :| 0 < k < |p| - 1 && p[k] == '@' && AllLocal(p, 0, k) && AllDomain(p, k + 1, |p|);
        assert s[k] == '@' && AllLocal(s, 0, k) && AllDomain(s, k + 1, |s|);
      }
    }
  }

  /** Text of the address shape leaves the matcher inside the domain part. */
  lemma {:induction false} DomainScanComplete(s: string)
    ensures EmailShape(s) ==> EmailScanOf(s) == InDomain
  {
    if EmailShape(s) {
      var p := s[..|s| - 1];
      var k :| 0 < k < |s| - 1 && s[k] == '@' && AllLocal(s, 0, k) && AllDomain(s, k + 1, |s|);
      assert forall i :: 0 <= i < |p| ==> p[i] == s[i];
      if k < |s| - 2 {
        assert p[k] == '@' && AllLocal(p, 0, k) && AllDomain(p, k + 1, |p|);
        DomainScanComplete(p);
      } else {
        AtSignScanMeaning(p);
      }
    }
  }

  /** The validator accepts exactly the addresses the pattern describes. */
  lemma IsValidEmailIff(correo: string)
    ensures IsValidEmail(correo) <==> EmailShape(correo)
  {
    EmailScanMeaning(correo);
  }

  // ---------------------------------------------------------------------
  // Referral codes
  // ---------------------------------------------------------------------

  /** The range `(1000..11759).random()` draws the numeric suffix from. */
  predicate IsReferralSuffix(n: int) {
    1000 <= n <= 11759
  }

  /** The letters a referral code starts with: the name without spaces, upper-cased, at most three characters. */
  function ReferralPrefix(nombre: string): (r: string)
    ensures |r| <= 3
  {
    Take(Uppercase(RemoveAll(nombre, ' ')), 3)
  }

  /**
   * `generarCodigoReferido`, with the random draw passed in as `suffix`:
   * the upper-cased first (at most) three non-space characters of the name,
   * then the suffix in decimal.
   */
  function ReferralCode(nombre: string, suffix: int): (r: string)
    requires IsReferralSuffix(suffix)
    ensures var cleaned := RemoveAll(nombre, ' ');
            var n := if |cleaned| < 3 then |cleaned| else 3;
            n + 4 <= |r| <= n + 5
            && (forall i :: 0 <= i < n ==> r[i] == UpperChar(cleaned[i]))
            && r[n..] == NatToString(suffix) && ParseInt(r[n..]) == Some(suffix)
  {
    var prefix := ReferralPrefix(nombre);
    var digits := NatToString(suffix);
    ReferralPrefixLetters(nombre);
    SuffixDigits(suffix);
    assert (prefix + digits)[|prefix|..] == digits;
    prefix + digits
  }

  /** The prefix holds the first (at most) three characters of the name without spaces, upper-cased. */
  lemma ReferralPrefixLetters(nombre: string)
    ensures var cleaned := RemoveAll(nombre, ' ');
            var n := if |cleaned| < 3 then |cleaned| else 3;
            |ReferralPrefix(nombre)| == n
            && forall i :: 0 <= i < n ==> ReferralPrefix(nombre)[i] == UpperChar(cleaned[i])
  {
  }

  /** A suffix is written with four or five digits that read back as the suffix. */
  lemma SuffixDigits(suffix: int)
    requires IsReferralSuffix(suffix)
    ensures 4 <= |NatToString(suffix)| <= 5 && ParseInt(NatToString(suffix)) == Some(suffix)
  {
    NatToStringLength(suffix);
    ParseIntToString(suffix);
  }

  /** Two non-space characters survive the removal of spaces. */
  lemma {:induction false} RemoveSpacesKeepsTwo(s: string, i: nat, j: nat)
    requires i < j < |s| && s[i] != ' ' && s[j] != ' '
    ensures |RemoveAll(s, ' ')| >= 2
  {
    if i > 0 {
      RemoveSpacesKeepsTwo(s[1..], i - 1, j - 1);
    } else {
      RemoveSpacesKeepsOne(s[1..], j - 1);
    }
  }

  lemma {:induction false} RemoveSpacesKeepsOne(s: string, j: nat)
    requires j < |s| && s[j] != ' '
    ensures |RemoveAll(s, ' ')| >= 1
  {
    if j > 0 {
      RemoveSpacesKeepsOne(s[1..], j - 1);
    }
  }

  /** Every name the register form accepts yields a referral code the form would accept. */
  lemma ReferralCodeOfValidName(nombre: string, suffix: int)
    requires IsValidName(nombre) && IsReferralSuffix(suffix)
    ensures IsValidReferralCode(ReferralCode(nombre, suffix))
  {
    var prefix, digits := ReferralPrefix(nombre), NatToString(suffix);
    SuffixDigits(suffix);
    assert ReferralCode(nombre, suffix) == prefix + digits;
    Utf16LengthAppend(prefix, digits);
    ValidNamePrefix(nombre);
  }

  /** The referral prefix of a valid name is two UTF-16 units long or more. */
  lemma ValidNamePrefix(nombre: string)
    requires IsValidName(nombre)
    ensures Utf16Length(ReferralPrefix(nombre)) >= 2
  {
    ValidNameWitness(nombre);
    if exists i, j :: 0 <= i < j < |nombre| && !IsWhitespace(nombre[i]) && !IsWhitespace(nombre[j]) {
      var i, j :| 0 <= i < j < |nombre| && !IsWhitespace(nombre[i]) && !IsWhitespace(nombre[j]);
      RemoveSpacesKeepsTwo(nombre, i, j);
      ReferralPrefixLetters(nombre);
    } else {
      var i :| 0 <= i < |nombre| && Utf16Units(nombre[i]) == 2;
      WidePrefix(nombre, i);
    }
  }

  /** A name holding a wide character has a prefix of two UTF-16 units or more. */
  lemma WidePrefix(nombre: string, i: int)
    requires 0 <= i < |nombre| && Utf16Units(nombre[i]) == 2
    ensures Utf16Length(ReferralPrefix(nombre)) >= 2
  {
    var c, cleaned, p := nombre[i], RemoveAll(nombre, ' '), ReferralPrefix(nombre);
    ReferralPrefixLetters(nombre);
    assert c in multiset(nombre);
    assert c in multiset(cleaned);
    if |cleaned| == 1 {
      assert cleaned[0] == c;
      assert p == [p[0]] && p[0] == c;
    }
  }

  /** A name with three or more non-space characters yields a code that starts with its upper-cased prefix and is seven or more long. */
  lemma ReferralCodeOfLongName(nombre: string, suffix: int)
    requires IsReferralSuffix(suffix) && |RemoveAll(nombre, ' ')| >= 3
    ensures ReferralCode(nombre, suffix)[..3] == ReferralPrefix(nombre)
    ensures |ReferralCode(nombre, suffix)| >= 7 && Utf16Length(ReferralCode(nombre, suffix)) >= 7
  {
  }

  lemma MarceloUppercase()
    ensures Uppercase("Marcelo")[..3] == "MAR"
  {
    var u := Uppercase("Marcelo");
    assert u[0] == 'M' && u[1] == 'A' && u[2] == 'R';
  }

  lemma MarceloPrefix()
    ensures |RemoveAll("Marcelo", ' ')| == 7
    ensures ReferralPrefix("Marcelo") == "MAR"
  {
    RemoveAllAbsent("Marcelo", ' ');
    MarceloUppercase();
  }

  /** The example the unit tests check: "Marcelo" yields a code starting with "MAR", six or more long. */
  lemma ReferralCodeExample(suffix: int)
    requires IsReferralSuffix(suffix)
    ensures ReferralCode("Marcelo", suffix)[..3] == "MAR"
    ensures Utf16Length(ReferralCode("Marcelo", suffix)) >= 6
  {
    MarceloPrefix();
    ReferralCodeOfLongName("Marcelo", suffix);
  }

  // ---------------------------------------------------------------------
  // Loyalty table
  // ---------------------------------------------------------------------

  /** The fewest points that reach each loyalty level 1..5. */
  function LevelThreshold(nivel: int): nat
    requires 1 <= nivel <= 5
  {
    [0, 500, 2352, 5880, 11760][nivel - 1]
  }

  /** `calcularNivel`: the loyalty level a points balance reaches. */
  function Level(puntos: int): (nivel: int)
    ensures 1 <= nivel <= 5
    ensures forall k :: 2 <= k <= 5 ==> (nivel >= k <==> puntos >= LevelThreshold(k))
  {
    if puntos >= 11760 then 5
    else if puntos >= 5880 then 4
    else if puntos >= 2352 then 3
    else if puntos >= 500 then 2
    else 1
  }

  /** More points never mean a lower level. */
  lemma LevelMonotone(p: int, q: int)
    requires p <= q
    ensures Level(p) <= Level(q)
  {
  }

  /** `obtenerPorcentajeDescuento`: the discount percent of a level; 0 for anything outside 1..5. */
  function LevelDiscount(nivel: int): (pct: int)
    ensures 1 <= nivel <= 5 ==> pct == [5, 7, 10, 12, 15][nivel - 1]
    ensures !(1 <= nivel <= 5) ==> pct == 0
  {
    match nivel
    case 5 => 15
    case 4 => 12
    case 3 => 10
    case 2 => 7
    case 1 => 5
    case _ => 0
  }

  /** A higher valid level never gives a smaller discount. */
  lemma LevelDiscountMonotone(a: int, b: int)
    requires 1 <= a <= b <= 5
    ensures LevelDiscount(a) <= LevelDiscount(b)
  {
  }

  /** The discount a points balance earns is one of the five table values, and grows with the points. */
  lemma PointsDiscount(p: int, q: int)
    requires p <= q
    ensures LevelDiscount(Level(p)) in {5, 7, 10, 12, 15}
    ensures LevelDiscount(Level(p)) <= LevelDiscount(Level(q))
  {
    LevelMonotone(p, q);
    LevelDiscountMonotone(Level(p), Level(q));
  }

  /** The level table at each threshold and just below it. */
  lemma LevelBoundaries()
    ensures Level(0) == 1 && Level(499) == 1 && Level(500) == 2
    ensures Level(2351) == 2 && Level(2352) == 3
    ensures Level(5879) == 3 && Level(5880) == 4
    ensures Level(11759) == 4 && Level(11760) == 5
    ensures LevelDiscount(1) == 5 && LevelDiscount(5) == 15 && LevelDiscount(99) == 0
  {
  }
}

=== FILE: wrappers.dfy ===
/** Small failure-carrying datatypes shared by every view-model of the storefront. */
module Wrappers {

  /** Kotlin's nullable `T?`: `None` stands for `null`. */
  datatype Option<+T> = None | Some(value: T) {

    /** The value, or `default` when absent (Kotlin's `?:`). */
    function GetOr(default: T): (r: T)
      ensures Some? ==> r == value
      ensures None? ==> r == default
    {
      match this
      case Some(v) => v
      case None => default
    }
  }

  /**
   * What a remote call can end in: the server answered with a body
   * (`Confirmed`), answered without one (`NotConfirmed`, the repositories'
   * `null`), or the call threw with the given message (`Failed`).
   */
  datatype Reply<+T> = Confirmed(body: T) | NotConfirmed | Failed(message: string)
}
